=== FILE: README.md ===
# ESP32 LoRa sensor node — a Dafny model of its firmware core

The firmware wakes from deep sleep and does one of two things:
- after a timer wake, it measures once and sends the reading over LoRaWAN;
- after any other wake, it starts three FreeRTOS tasks: a send task, a join task when
  it has no session, and a BLE configuration task when the button woke it. It then
  waits for the join and BLE tasks and goes back to sleep, arming the button and,
  when it has a session, a timer for the rest of the send period.

This project models, as immutable data and pure functions:

- **Wake/sleep orchestration** (`main/main.c`; modules `Node`, `NodeProofs`, `SendTiming`).
  - `Node` is a state machine. Its state is the session address, the send timestamp,
    the binary semaphores as booleans, whether a join task is alive, the number of
    live BLE tasks, the BLE task's `connection` flag and the armed send timer.
  - Each task body between two blocking points is one atomic step: the wake decision,
    the two halves of `join_task_func`, one `ble_task_func` iteration, one
    `send_task_func` iteration, the timer callback, the button ISR, `app_main` taking
    its semaphores, and the sleep plan. `Step` and `Run` compose them.
  - `NodeProofs` proves an invariant of every reachable state and the consequences
    stated in the table below.
- **BLE configuration service** (`main/ble.c`; module `Ble`).
  - GATT read and write dispatch from a handle to an attribute, its storage key, its
    fixed length and its queued event.
  - The five-entry event queue, which drops a new event when it is full.
  - The advertising handshake on two configuration flags.
  - The connection flag that gates notifications (`esp_ble_gatts_send_indicate` with `need_confirm` false).
  - The attribute values a client reads, as the battery and environmental setters
    update them.
- **Byte codecs**:
  - the Cayenne LPP type table and a record codec (`Cayenne`);
  - the LPP and packed native encoders of the three profiles (`EnvPayload`,
    `ProfileDefault`, `ProfileEnvironmental`, `ProfileSoilMoisture`) and profile
    selection (`Profile`);
  - DHT22 sign-magnitude decoding and 40-bit packing, DHT10 field extraction
    (`Sensor`);
  - the battery percentage (`Battery`).
- **LMIC radio HAL timer** (`main/lmic_hal.c`; module `LmicHal`): the 32-bit tick
  counter, the expiry check and the sleep wake dispatch.
- **I2C framing and LED duty table** (`main/i2c.c`, `main/peripherals.c`; modules
  `I2cBus`, `I2c`, `Peripherals`).
  - A transfer is a list of command links, each with its address byte, its writes,
    its read count and whether it was deleted.
  - The address byte is laid out as in section 3.1.10 of the NXP UM10204 I2C-bus
    specification.
  - The NACK on the last byte read follows section 3.1.6 of that specification.

Shared pieces: `Bytes` holds the fixed-width integer types and byte orders, `Nvs` the
non-volatile store as a map, and `Wrappers` the `Option` type.

Inputs stand in for what the firmware reads from hardware or from code not modelled
here: the clock, the join outcome, the wake cause, the supply voltage, the sensor
pulses and bytes, the I2C driver's return codes, the radio wake source, and the time
that passes inside `hal_sleep`.

In `main/main.c:91-94` an elapsed time at or past the period leaves the full period,
not zero; `SendTiming.Remaining` states exactly that.

## Model

| member | source | states |
|---|---|---|
| Nvs.U8SetThenGet | main/ble.c:337 | a one-byte value written with `nvs_set_u8` is what a later `nvs_get_u8` of that key reads, whatever the caller's initial value |
| Nvs.U16SetThenGet | main/ble.c:315 | a 16-bit value written with `nvs_set_u16` is what a later `nvs_get_u16` of that key reads |
| Nvs.GetOtherKey | main/ble.c:313-342 | writing one key changes no read of any other key, neither a one-byte, a 16-bit nor a blob-presence read |
| Nvs.GetWrongType | main/main.c:85-86 | a missing key, or one holding another type, leaves the caller's variable as it was: its initial value, or whatever the uninitialised `period` held |
| Bytes.SplitThenJoin16 | main/profile_default.c:64-65 | the high byte (`>> 8`) and the truncated low byte of a 16-bit word join back to the word |
| Bytes.JoinThenSplit16 | main/profile_default.c:64-65 | joining two bytes and splitting again gives the two bytes back |
| Bytes.Signed16OfBits16 | main/profile_default.c:54-55 | an `int16_t` stored as its two's-complement bits reads back as the same signed value |
| Bytes.Bits16OfSigned16 | main/profile_default.c:54-55 | every 16-bit pattern is the two's-complement bits of exactly one `int16_t` |
| Bytes.LittleEndian16RoundTrip | main/profile_default.c:17-22 | a 16-bit struct field laid out in the ESP32's little-endian order reads back as the same value |
| Bytes.ReadThenWriteLittleEndian16 | main/main.c:85-86 | any two stored bytes are the little-endian image of the value read from them |
| Bytes.LittleEndian32RoundTrip | main/profile_soil_moisture.c:19-26 | the 32-bit pressure field laid out little-endian reads back as the same value |
| Cayenne.TypeOf | main/cayenne.h:4-15 | a recognised type byte names a type whose code is that byte |
| Cayenne.CodeRoundTrip | main/cayenne.h:4-15 | every LPP type's code decodes back to that type |
| Cayenne.CodesDistinct | main/cayenne.h:4-15 | no two LPP types share a code |
| Cayenne.TableEntries | main/cayenne.h:5-13 | humidity is 1 unsigned byte in 0.5 % steps; temperature 2 signed bytes in 0.1 °C; analog input 2 signed bytes in 0.01; pressure 2 unsigned bytes in 0.1 hPa; digital output 1 byte |
| Cayenne.Decode | main/cayenne.h:4-15 | a frame the decoder accepts is a list of well-formed records (data length = the type's size) that encodes back to the same bytes |
| Cayenne.DecodeEncode | main/cayenne.h:4-15 | decoding the encoding of well-formed records returns those records |
| EnvPayload.EncodeLpp | main/profile_default.c:117-140 | the LPP frame is 11 bytes and fits `lpp[11]` |
| EnvPayload.EncodeNative | main/profile_default.c:141-149 | the packed native payload is `sizeof(native_payload_t)` = 5 bytes |
| EnvPayload.Payload | main/profile_default.c:111-150 | the frame is 11 bytes when the format is 1 and 5 bytes otherwise |
| EnvPayload.FormatSelectsEncoding | main/profile_default.c:111-117 | LPP is sent iff the stored format is exactly 1; a missing key (initialised 0) selects native |
| EnvPayload.LppRecords | main/profile_default.c:123-135 | the frame decodes as the records (1, humidity, h), (2, temperature, big-endian t), (3, analog input, big-endian b), each with the size the LPP table gives its type |
| EnvPayload.LppReadBack | main/profile_default.c:119-135 | byte 2 is the humidity; bytes 5–6 and 9–10 read back big-endian as `int16_t` give the temperature and battery values |
| EnvPayload.NativeRoundTrip | main/profile_default.c:141-149 | decoding the packed struct gives back humidity, temperature and battery |
| ProfileDefault.SendLora | main/profile_default.c:43-87 | one LoRa send of 11 bytes (LPP, type byte 104 first, decoding to the three records of humidity, temperature and battery on channels 1, 2, 3) or 5 bytes (native, decoding to the measurement) |
| ProfileDefault.Execute | main/profile_default.c:95-154 | BLE is updated iff `ble`, LoRa sends iff `lora`, and the LoRa bytes are exactly those `profile_send_lora` sends |
| ProfileEnvironmental.Execute | main/profile_environmental.c:29-85 | BLE is updated iff `ble`; a LoRa send happens iff `lora` |
| ProfileEnvironmental.SameAsDefault | main/profile_environmental.c:38-84 | for the same store and measurement, the effects are byte for byte those of the default profile |
| ProfileSoilMoisture.EncodeLpp | main/profile_soil_moisture.c:71-94 | the LPP frame is 14 bytes and fills `payload[14]` |
| ProfileSoilMoisture.EncodeNative | main/profile_soil_moisture.c:95-104 | the packed native payload is 11 bytes |
| ProfileSoilMoisture.LppRecords | main/profile_soil_moisture.c:77-92 | the frame decodes as four well-formed records of types 104, 103, 115 and 1 on channels 1 to 4, the last carrying 100 |
| ProfileSoilMoisture.LppReadBack | main/profile_soil_moisture.c:84-92 | temperature reads back as a signed and pressure as an unsigned big-endian 16-bit value; byte 13 is 100 |
| ProfileSoilMoisture.NativeLayout | main/profile_soil_moisture.c:97-103 | humidity, temperature and pressure read back from bytes 0–8 and byte 8 is the fixed battery 100; the last two bytes (unassigned `soil_moisture`) change with the stack contents and nothing else does |
| ProfileSoilMoisture.Payload | main/profile_soil_moisture.c:68-104 | the frame is 14 bytes when the format is 1 and 11 bytes otherwise |
| ProfileSoilMoisture.Execute | main/profile_soil_moisture.c:45-106 | whatever the flags, the first five effects are EXT_NSW high, three ADC reads, EXT_NSW low, and no other ADC read or EXT_NSW change follows; BLE is updated iff `ble`; LoRa sends iff `lora`, last, with the stored format's payload |
| Profile.GetCallbacks | main/profile.c:5-22 | all three callbacks are assigned, each of its own role and all from one profile; they are the soil-moisture ones iff the profile is PROFILE_SOIL_MOISTURE |
| Profile.ProfileOf | main/profile.h:6-9 | every profile has a `profile_t` value, 1 exactly for soil moisture |
| Profile.SelectsNamedProfile | main/profile.c:5-22 | each profile's own value selects that profile's init, execute and deinit callbacks |
| Profile.SelectionFactorsThroughKind | main/profile.c:5-22 | every value selects the same triple as the value of the profile it selects; any value but PROFILE_SOIL_MOISTURE selects the environmental triple |
| Battery.Percent | main/battery.c:32-36 | the percentage lies in [0, 100]; a supply at or above 4200 mV gives 100 and one at or below 1650 mV gives 0 |
| Battery.PercentMonotone | main/battery.c:32-36 | a higher supply voltage never reports a lower percentage |
| Battery.AgreesFromMinVcc | main/battery.c:32-36 | from 1650 mV up, the corrected percentage is what the source computes |
| Battery.PercentAsWritten | main/battery.c:32-36 | the float the source assigns to its `uint8_t` result is never negative, and it lies within the header's [0, 100] exactly when the supply is at least 1650 mV |
| Battery.AsWrittenLeavesRangeBelowMin | main/battery.c:32-36 | below 1650 mV the unsigned subtraction wraps, so the float assigned to the `uint8_t` result exceeds 100, an out-of-range conversion with undefined result |
| Battery.AsWrittenAtOneVolt | main/battery.c:32-36 | at 1000 mV the float assigned to the `uint8_t` result exceeds one million |
| Sensor.DhtConvert | main/sensor.c:53-61 | the value lies in [−32767, 32767] (no `int16_t` overflow) and is negative only if bit 7 of `msb` is set |
| Sensor.ConvertSignMagnitude | main/sensor.c:53-61 | every value in [−32767, 32767] is decoded back from its sign-magnitude word |
| Sensor.SignMagnitudeConvert | main/sensor.c:53-61 | every word except 0x8000 is recovered from its decoded value |
| Sensor.ConvertInjectiveButZero | main/sensor.c:53-61 | two distinct words decode to the same value only if they are 0x0000 and 0x8000 |
| Sensor.PackLayout | main/sensor.c:106-111 | byte k, bit 7 − j of the packed frame is received bit 8k + j |
| Sensor.PackBits | main/sensor.c:106-111 | the shift-and-or loop on `uint8_t` produces exactly the MSB-first packing of the 40 bits |
| Sensor.PartialStep | main/sensor.c:109-110 | one loop turn takes the bytes after i bits to the bytes after i + 1 bits |
| Sensor.Dht22Read | main/sensor.c:100-114 | each reading lies in [−32767, 32767] tenths; humidity is negative only if received bit 0, and temperature only if bit 16, was a high pulse longer than its low pulse (`bits[i] = high_duration > low_duration`) |
| Sensor.ChecksumIgnored | main/sensor.c:113-114 | pulse trains that agree on the first 32 bits give the same reading, whatever the checksum byte |
| Sensor.RawHumidity | main/sensor.c:77 | the raw DHT10 humidity is below 2^20 |
| Sensor.RawTemperature | main/sensor.c:78 | the raw DHT10 temperature is below 2^20 |
| Sensor.Dht10FieldsRoundTrip | main/sensor.c:77-78 | both 20-bit fields are recovered from a frame built from them, so they occupy disjoint bits |
| Sensor.Dht10FrameRoundTrip | main/sensor.c:77-78 | bytes 1–5 are rebuilt from the two fields: the fields lose no bit |
| Sensor.Dht10InitSucceeds | main/sensor.c:23-30 | init succeeds iff all three I2C transfers return 0 and bit 3 of the status byte is set |
| I2cBus.AddressByteLayout | main/i2c.c:33 | the address byte is the 7-bit device address shifted left with the R/W bit as bit 0 (the top bit of the device id is shifted out) |
| I2cBus.AddressCommand | main/i2c.c:48-52 | the register-address phase is a write (bit 0 clear) and reads nothing |
| I2cBus.ReadCommand | main/i2c.c:61-68 | the read phase addresses for reading (bit 0 set), writes nothing, reads `len` bytes and NACKs the last |
| I2cBus.ReturnCode | main/i2c.c:71 | 0 iff the driver reported ESP_OK, −1 otherwise |
| I2c.Write | main/i2c.c:29-40 | one deleted link with the write address, the register byte and the data buffer even when it is empty; returns 0 iff the driver succeeded |
| I2c.ReadAsWritten | main/i2c.c:42-72 | `len` 0 returns 0 without traffic; a failed address phase returns −1 having read nothing; otherwise exactly `len` bytes are read, both links deleted, and 0 is returned iff the read succeeded |
| I2c.ReadLeaksLink | main/i2c.c:53-56 | when the address phase fails, the created command link is never deleted |
| I2c.Read | main/i2c.c:42-72 | the corrected read deletes every link it creates on every path, with the same traffic and return codes |
| I2c.ReadAgreesUnlessAddressFails | main/i2c.c:53-57 | the corrected and the as-written read agree exactly when `len` is 0 or the address phase succeeds |
| Peripherals.I2cWrite | main/peripherals.c:43-56 | the data buffer is written iff `len > 0`; the link is deleted; returns 0 iff the driver succeeded |
| Peripherals.WritesAgreeUnlessEmpty | main/peripherals.c:49-51 | the two `i2c_write` variants frame a transfer identically iff the data is not empty |
| Peripherals.Duty | main/peripherals.c:127-145 | every duty fits the 10-bit resolution (at most 1023) |
| Peripherals.DutyMonotone | main/peripherals.c:129-144 | a state with a higher nominal brightness always has a higher duty |
| Peripherals.DutyAgainstNominal | main/peripherals.c:136-143 | ON and OFF are exact; DUTY_5 and DUTY_50 fall short of their percentages because `1023 / 100` truncates to 10; DUTY_90 is between 73 % and 74 % of full scale |
| Peripherals.SetState | main/peripherals.c:127-147 | the duty for the state is set on the LED's channel (0 or 1) and then applied |
| Peripherals.ChannelsDistinct | main/peripherals.c:103-116 | the BLE and LoRa LEDs use different channels |
| LmicHal.Ticks | main/lmic_hal.c:182-187 | the tick count is the counter's low 32 bits |
| LmicHal.SetNextTimerAlarm | main/lmic_hal.c:189-204 | afterwards the counter fits 32 bits with the same ticks, and the alarm is the requested time |
| LmicHal.Disarm | main/lmic_hal.c:213-217 | the alarm becomes the sentinel 0x200000000, beyond every 32-bit time, and the counter is unchanged |
| LmicHal.CheckTimer | main/lmic_hal.c:227-241 | due when the time is at most 4 ticks ahead or less than 0x10000 ticks past, compared with plain unsigned ordering; when not due the alarm is set to the time |
| LmicHal.CheckAgreesWhenClose | main/lmic_hal.c:233-237 | when the target lies within 2^31 ticks of now, the unsigned comparison agrees with the modular one |
| LmicHal.FarFutureAcrossWrap | main/lmic_hal.c:233 | a target just below 2^32 with now at 0x10 is classed as far future and an alarm is set, although modularly it expired 32 ticks ago |
| LmicHal.Sleep | main/lmic_hal.c:243-265 | the alarm is armed first; DIO0 and DIO1 wakes call the radio interrupt handler with 0 and 1, others call nothing; the alarm is disarmed afterwards |
| LmicHal.WaitUntil | main/lmic_hal.c:219-225 | the alarm armed is the requested time, and it is disarmed on return |
| LmicHal.CheckThenSleep | main/lmic_hal.c:227-265 | a target `hal_checkTimer` finds not yet due is exactly the alarm the following `hal_sleep` arms |
| LmicHal.SleepConsumesAlarm | main/lmic_hal.c:213-217 | `hal_sleep` disarms on return, so a second sleep without a new target arms the sentinel, an alarm beyond every 32-bit time |
| LmicHal.PinRst | main/lmic_hal.c:119-130 | nothing happens for an unused pin; values 0 and 1 drive the pin as output and any other value makes it an input |
| Ble.Send | main/ble.c:392-403 | a zero-timeout send appends to a non-full queue and leaves a full queue unchanged |
| Ble.Receive | main/ble.c:438 | receiving fails iff the queue is empty, and otherwise returns the oldest event and the rest |
| Ble.SendThenReceive | main/ble.c:438 | the queue is first in, first out |
| Ble.SendAllKeepsPrefix | main/ble.c:438 | after a burst of sends, the queue holds the old contents followed by as many new events as there was room for, in order |
| Ble.Resolve | main/ble.c:312-342 | a handle names the period attribute iff it is the period handle, and names nothing iff it is none of the seven LoRa handles |
| Ble.ResolveHandleOf | main/ble.c:312-342 | with distinct handles, each attribute's handle resolves to that attribute |
| Ble.AttrTable | main/ble.c:281-341 | period: 2 bytes and PERIOD_UPDATE; EUIs: 8 bytes and LORA_UPDATED; keys: 16 bytes and LORA_UPDATED; payload format and confirmed: 1 byte and no event |
| Ble.StorageKeysDistinct | main/ble.c:312-341 | different attributes are stored under different keys |
| Ble.Take | main/ble.c:319 | exactly n bytes are stored: the value's bytes, then zeros past its end |
| Ble.Stored | main/ble.c:312-341 | the period is stored as a u16, payload format and confirmed as a u8, the EUIs and keys as blobs of their fixed length |
| Ble.Write | main/ble.c:309-357 | an unknown handle changes neither store nor queue; a known one stores its key and enqueues its event; a response is sent iff `need_rsp` and echoes the value iff the write is prepared |
| Ble.Read | main/ble.c:273-307 | a response is sent iff the handle is known, with the attribute's fixed length |
| Ble.WriteThenRead | main/ble.c:273-357 | reading an attribute after writing a full-length value returns that value |
| Ble.WriteLeavesOtherKeys | main/ble.c:309-342 | a write changes no storage key other than its attribute's |
| Ble.Init | main/ble.c:436-438 | the event queue starts empty |
| Ble.Deinit | main/ble.c:466-481 | afterwards `ble_has_context` is false and the queue is gone |
| Ble.HandleGatts | main/ble.c:359-413 | registration records the interface and sets both configuration flags; connect sets the connection flag and queues CONNECT; disconnect clears it, restarts advertising and queues DISCONNECT; reads change no state |
| Ble.HandleGap | main/ble.c:415-434 | each completion event clears its own flag, and advertising starts iff that leaves both flags clear |
| Ble.GapHandshake | main/ble.c:364-372 | after registration, advertising starts iff both completion events have arrived |
| Ble.SetBattery | main/ble.c:483-494 | as written, the level is remembered and set, and notified iff a client is connected, on the battery characteristic's declaration handle (BAT_SERV_IDX_CHAR_BAT_LVL); no effect touches any other handle |
| Ble.SetBatteryHitsDeclaration | main/ble.c:487-492 | as written, the set and the notification are addressed to the declaration handle: the value attribute a client reads is left as it was, a connected client is notified under the declaration handle, and (under `Apply`'s reading of the set) the declaration attribute takes the level byte |
| Ble.SetBatteryCorrected | main/ble.c:483-494 | corrected: the level is remembered, and set and (iff a client is connected) notified only on the battery level's value handle, as `ble_set_enviromental` uses it |
| Ble.SetBatteryCorrectedPublishes | main/ble.c:483-494 | after the corrected update the battery level value attribute holds the new level and no other attribute changes |
| Ble.SetEnvironmental | main/ble.c:496-514 | values are set only on the humidity, temperature and battery level value handles, notifications go only to the first two, and notifications are sent iff a client is connected |
| Ble.EnvironmentalPublishes | main/ble.c:496-514 | a client reads back the humidity and the signed temperature handed in, as little-endian words, and the battery level last remembered |
| Ble.Publish | main/profile_default.c:91-92 | `ble_set_battery` as written then `ble_set_enviromental`: the level is remembered, notifications are sent iff a client is connected, a connected client is notified of the level under the battery declaration handle, and nothing else is notified but humidity and temperature |
| Ble.PublishReadsBack | main/profile_default.c:91-92 | after that pair, as written, a client still reads back all three readings from their value handles, because `ble_set_enviromental` stores the remembered level at the battery value handle |
| Ble.ApplyConcat | main/ble.c:487-514 | applying two runs of attribute updates in turn is applying their concatenation |
| SendTiming.Elapsed | main/main.c:91 | the elapsed seconds are the difference truncated to `uint16_t` |
| SendTiming.Remaining | main/main.c:91-94 | `period − dt` when `dt < period`, otherwise the full period (not zero); for a period ≥ 1 the value lies in [1, period] |
| SendTiming.RemainingAfterStamp | main/main.c:207-209 | right after `measure_and_send` stamps the time, the remaining time is the full period |
| SendTiming.RemainingCountsDown | main/main.c:91-94 | within a period, k seconds later the remaining time is k less |
| SendTiming.ElapsedWraps | main/main.c:91 | the remaining time repeats every 2^16 seconds |
| SendTiming.WrapInt32 | main/main.c:98 | the product is reduced into the `int` range modulo 2^32 |
| SendTiming.ToUint64 | main/main.c:98 | a negative `int` converts to `uint64_t` by adding 2^64 |
| SendTiming.MicrosAsWritten | main/main.c:98 | the timeout the source passes keeps the low 32 bits of the true product, lies below 2^31 or within 2^31 of 2^64, and is the true product for periods up to 2147 s |
| SendTiming.Micros | main/main.c:98 | the corrected timeout is exactly `period` seconds in microseconds |
| SendTiming.MicrosAsWrittenCorrectIff | main/main.c:98 | the 32-bit `period * 1000000` is correct iff the period is at most 2147 s |
| SendTiming.HourPeriodOverflows | main/main.c:305 | a one-hour period yields a timeout of nearly 2^64 µs |
| SendTiming.ShortTimeoutBand | main/main.c:98 | a period of 4295 s yields a timeout of 32704 µs instead of 4295 s |
| Node.RemainingSeconds | main/main.c:299-302 | the sleep block and `arm_send_timer` compute the same remaining seconds, at most the period and at least 1 for a nonzero period |
| Node.TimeoutMicros | main/main.c:98 | the armed microseconds equal the intended `seconds × 10^6` exactly when the product is 64-bit or the seconds are at most 2147; as written it is the 32-bit `int` product |
| Node.ArmSendTimer | main/main.c:83-99 | an idle timer is armed for the remaining seconds, converted with the node's product (the overflowing 32-bit one as written); a running one keeps its deadline; nothing else changes |
| Node.MeasureAndSend | main/main.c:199-210 | one send is recorded and the send time becomes now; nothing else changes |
| Node.Boot | main/main.c:253-280 | only the session address and send time carry over from RTC memory (main.c:40-45); the BLE statics start afresh: no connection, empty queue, level 0. A timer wake sends once without BLE and starts no task; any other wake starts the send task, a join task iff there is no session (else gives the join semaphore and arms the timer), and a BLE task iff the button woke the node (else gives the BLE semaphore) |
| Node.JoinStart | main/main.c:101-116 | the timer stops and the session and send time are zeroed; with all three credentials the join proceeds, otherwise the task ends and gives its semaphore |
| Node.JoinEnd | main/main.c:117-131 | on success the session is taken and a send requested; on every path the join task is cleared and its semaphore given |
| Node.BleReceive | main/main.c:148-178 | the task ends only on a timeout while not connected; CONNECT/DISCONNECT set and clear `connection`; PERIOD_UPDATE requests a send iff there is a session; LORA_UPDATED replaces the join task and clears its semaphore |
| Node.Gatts | main/ble.c:359-413 | a GATT callback changes only the store and the BLE state |
| Node.Gap | main/ble.c:415-434 | a GAP callback changes only the BLE state |
| Node.SendRun | main/main.c:212-221 | a send takes the semaphore, sends once with BLE and arms an idle timer for a full period, converted with the node's product |
| Node.TimerFire | main/main.c:194-197 | the timer callback gives the send semaphore, and the one-shot timer is spent (no longer armed); nothing else changes |
| Node.Button | main/main.c:187-192 | a BLE task is started iff the ISR can take the BLE semaphore; otherwise nothing changes |
| Node.MainTake | main/main.c:282-287 | `app_main` takes its two semaphores in order, then deletes the send task and commits to sleep |
| Node.PlanSleep | main/main.c:292-306 | the button wake is always armed; the timer wake iff there is a session; the timer lasts exactly the remaining seconds iff the product is 64-bit or those seconds are at most 2147 |
| Node.Step | main/main.c:101-221 | an action takes effect iff its task exists and is not blocked, GATT reads and writes only from a connected client, and never after `app_main` commits to sleep; no action changes the wait order or the timeout product |
| NodeProofs.BootEstablishes | main/main.c:245-280 | every wake starts in a state where exactly one of "a BLE task runs", "the BLE semaphore is given", "main took it" holds |
| NodeProofs.TaskStepPreserves | main/main.c:148-183 | the task-moving steps keep that invariant |
| NodeProofs.EventStepPreserves | main/main.c:187-221 | the remaining steps keep that invariant |
| NodeProofs.StepPreserves | main/main.c:101-287 | every step keeps the invariant |
| NodeProofs.RunPreserves | main/main.c:101-287 | every run keeps the invariant |
| NodeProofs.RunKeepsVariant | main/main.c:253-306 | no run changes the wait order or the timeout product |
| NodeProofs.ReachableInv | main/main.c:253-287 | every state reachable from a wake satisfies the invariant |
| NodeProofs.AtMostOneBleTask | main/main.c:187-192 | at most one BLE task ever runs, and while it runs the button does nothing |
| NodeProofs.SendRequestsCoalesce | main/main.c:194-197 | a timer expiry while a send is pending yields one send, after which no second send is enabled |
| NodeProofs.AsWrittenSleepsDuringJoin | main/main.c:282-283 | waiting for the join first, a client that connects, writes the join EUI and disconnects during BLE leads to deep sleep with a join still running, no session and no timer wake |
| NodeProofs.RunConcat | main/main.c:253-287 | running two runs of actions in turn is running their concatenation |
| NodeProofs.HourLeftSleeps | main/main.c:305 | with a session and an hour left, the timer as written is armed for 2^64 − 694967296 µs; with the 64-bit product for exactly 3.6 × 10^9 µs |
| NodeProofs.CorrectedOrderSleepsIdle | main/main.c:282-283 | waiting for BLE first, the node sleeps only with no join task, no BLE task and no send task |

## Left out

- FreeRTOS preemption, ISR context and interleavings inside a task body are not modelled. Each task body between two blocking points is one atomic step. The unlocked `join_task = 0` that races with the mutex-guarded delete is therefore not visible.
- The `portMAX_DELAY` waits of `app_main` are unbounded, and the model adds no watchdog. A run that never enables `MainTakeAct` simply never sleeps.
- The LoRaWAN stack (`main/lora.c`, LMIC, AES) is not part of this model. A join is an outcome input (`JoinEndAct`), a send is a recorded event, and the send period's sequence counters are not kept.
- ESP-IDF drivers are left out: SPI transfers, GPIO levels other than those listed, LEDC timers, ADC calibration, the hardware timer registers, `esp_deep_sleep_start`, and the Bluedroid init and deinit calls. Their results are inputs.
- The Bluedroid attribute tables, advertising structures and `ESP_GATTS_CREAT_ATTR_TAB_EVT` are constant data. The handles they produce are the `HandleTable` and `SensorHandles` inputs. As ordinary globals the handle tables are zero at each wake until `ESP_GATTS_CREAT_ATTR_TAB_EVT` fills them; the model takes them as already filled.
- Floating point is left out: sensor scaling, the BME280 wrapper, the `* 100` conversions in `ble_set_enviromental` and the float-to-integer casts in the encoders. Encoders take the integer field values.
- Battery.Percent: exact rational arithmetic truncated toward zero. The source's `float` division may round a result that is exactly an integer down by one.
- The DHT22 pulse-timing loop (`dht_await_pin_state`) is left out. Pulse lengths are inputs, and the timeouts that abort through `ESP_ERROR_CHECK` are not modelled.
- `ble_set_telemetry`, called from `main/main.c:146` and `main/main.c:203`, is not defined in `main/ble.c`. Its effect on BLE state is not modelled; `Node.MeasureAndSend` records only the send and its `has_ble` flag.
- The LoRa credentials written over BLE use the `STORAGE_KEY_LORA_*` keys. `join_task_func` checks `STORAGE_KEY_APP_EUI`, `DEV_EUI` and `DEV_KEY`. These are kept as distinct keys because nothing shown defines them to be equal.
- Ble.Apply: `esp_ble_gatts_set_attr_value` is taken to replace the value at any handle it is given. A refusal by the Bluetooth stack of a set on a characteristic declaration handle is not modelled; with such a refusal the as-written battery set would leave the declaration unchanged instead of overwriting it.
- SendTiming.WrapInt32: `period * 1000000` overflowing `int` is undefined behaviour in C. The model takes the two's-complement wrap that the compiled multiplication produces.
- Ble.Write: a value shorter than the attribute is stored padded with zeros. The source copies the fixed length from the received buffer, whose bytes past the value are unknown.
- Ble.Read: the behaviour of `nvs_get_blob` is taken as documented by ESP-IDF and not derived. A stored blob that fits the buffer is copied over the zeroed response. A longer one is refused, which leaves the response zero.
- LmicHal.Sleep: the time that passes while waiting on the wake queue is an input (`later`), and the mutex hand-over around the wait is not modelled.
- Node.ArmSendTimer: `esp_timer_start_once` on a running timer fails and keeps the old deadline. The model keeps the deadline and does not report the error.
- Node.Step: the send timer's expiry is not tied to the clock. `TimerFireAct` is enabled whenever the timer is armed, and `TickAct` advances the clock independently.
- A missing period key leaves `period` uninitialised in both `arm_send_timer` and the sleep block. It is modelled as one unconstrained input (`unsetPeriod`) rather than two independent values.
- `led_id_t` and `led_state_t` are declared in none of the files of this model. `main/peripherals.h:16-17` defines `LED_BLE` and `LED_LORA` as GPIO numbers 2 and 15, which as indices would run past the two-entry `led_channel[]` (`main/peripherals.c:16`). The model assumes `led_id_t` is an enumeration with BLE = 0 and LoRa = 1, matching the channel wiring of `led_init`.
- `main/profile_soil_moisture.c:63` calls `ble_set_enviromental` with three arguments (humidity, temperature, pressure), but `main/ble.c:496` defines it with two, and `main/ble.h:21` declares only `ble_set_telemetry` with three. The model records that call as its own `BleTelemetry` effect carrying the three values, and does not tie it to `Ble.SetEnvironmental`.
- `main/peripherals.c`'s `i2c_read` is the same code as `main/i2c.c`'s, so `I2c.ReadAsWritten` and `I2c.Read` model both.
- `led_init`/`led_deinit`, `battery_measure_init`, the profiles' `init`/`deinit` callbacks, `profile_measure` and `profile_send_ble` (other than as part of `Execute`) do nothing the model can observe and are left out.

## Findings

| source | as written | input that shows it | evidently intended | confidence | as-written member | corrected member |
|---|---|---|---|---|---|---|
| main/main.c:98 | `period * 1000000` promotes the `uint16_t` period to 32-bit `int`, overflows above 2147 s, so the `uint64_t` timeout is either at least 2^64 − 2^31 µs or below 2^31 µs (same at main/main.c:305) | period = 3600 s gives 2^64 − 694967296 µs, and 4295 s gives 32704 µs; `Node` runs either product (`IntProduct` as written, `WideProduct` corrected) | the timeout is `period` seconds in microseconds, computed in 64 bits | not executed | SendTiming.MicrosAsWrittenCorrectIff | SendTiming.Micros |
| main/battery.c:32-36 | `(vcc > MAX_VCC ? MAX_VCC : vcc) - MIN_VCC` is computed in `uint32_t`, so below 1650 mV it wraps instead of going negative, and the `v < 0` guard never fires; the float then assigned to the `uint8_t` result exceeds 100, an out-of-range conversion with undefined result | vcc = 1000 mV: the float assigned is above one million | voltages below MIN_VCC read 0 %, as the header's [0–100] promises | not executed | Battery.AsWrittenLeavesRangeBelowMin | Battery.Percent |
| main/ble.c:487-492 | `ble_set_battery` sets and notifies `bat_serv_handle_table[BAT_SERV_IDX_CHAR_BAT_LVL]`, the characteristic declaration's handle, while `ble_set_enviromental` (main/ble.c:505) uses the value handle `BAT_SERV_IDX_CHAR_VAL_BAT_LVL` | any call: the set and the notification are addressed to the declaration handle, so the value attribute is not updated and a connected client is notified under the declaration handle, not the value it subscribed to | set and notify the value handle | not executed | Ble.SetBatteryHitsDeclaration | Ble.SetBatteryCorrected |
| main/i2c.c:53-56 | when the address phase fails, `i2c_read` returns −1 before `i2c_cmd_link_delete`, leaking the command link (same at main/peripherals.c:69-73) | len = 1 with the first `i2c_master_cmd_begin` failing | every created link is deleted on every path | not executed | I2c.ReadLeaksLink | I2c.Read |
| main/main.c:282-283 | `app_main` takes `join_task_done_sem` before `ble_task_done_sem`; a credential write over BLE after the first take starts a new join task that is still running when the node goes to sleep, with the session cleared, so no timer wake is armed | a button wake with a session; a client connects, writes the join EUI and disconnects; the BLE task times out | the node sleeps only after every join started during the wake has finished, e.g. by waiting for the BLE task first | not executed | NodeProofs.AsWrittenSleepsDuringJoin | NodeProofs.CorrectedOrderSleepsIdle |

=== FILE: battery.dfy ===
/** main/battery.c: battery percentage from the measured supply voltage `vcc` (mV).
    The float division is modelled as exact division truncated toward zero, the
    conversion C applies when a float in range is stored in a `uint8_t`. A float
    of 256 or more has no `uint8_t` value: that conversion is undefined
    behaviour in C, so the as-written functions stop at the float's value. */
module Battery {
  import opened Bytes

  const MaxVcc: int := 4200
  const MinVcc: int := 1650

  /** `(vcc > MAX_VCC ? MAX_VCC : vcc) - MIN_VCC` as the source computes it: in
      `uint32_t`, so a voltage below MIN_VCC wraps around instead of going negative. */
  function SpanAsWritten(vcc: u32): u32
  {
    ((if vcc > MaxVcc then MaxVcc else vcc) - MinVcc) % 0x1_0000_0000
  }

  /** The percentage the source computes before narrowing it to `uint8_t`; the
      `v < 0` guard can never fire because the span is unsigned. It stays in
      the header's [0, 100] exactly when the voltage is at least MIN_VCC. */
  function PercentAsWritten(vcc: u32): (r: int)
    ensures r >= 0
    ensures r <= 100 <==> vcc >= MinVcc
  {
    var v := SpanAsWritten(vcc);
    assert vcc < MinVcc ==> v == vcc - MinVcc + 0x1_0000_0000;
    var v' := if v < 0 then 0 else v;
    v' * 100 / (MaxVcc - MinVcc)
  }

  /** The header promises a value in [0, 100], but for every voltage below
      MIN_VCC the float assigned to the `uint8_t` result exceeds 100 (by far:
      it is at least 4294965646 / 2550 * 100), an out-of-range conversion whose
      result C leaves undefined. */
  lemma AsWrittenLeavesRangeBelowMin(vcc: u32)
    requires vcc < MinVcc
    ensures PercentAsWritten(vcc) > 100
  {
    assert SpanAsWritten(vcc) == vcc - MinVcc + 0x1_0000_0000;
  }

  /** A concrete case: at 1000 mV the float stored into the `uint8_t` result
      is over a million. */
  lemma AsWrittenAtOneVolt()
    ensures PercentAsWritten(1000) > 1000000
  {
  }

  /** The evidently intended computation: clamp into [MIN_VCC, MAX_VCC] with signed
      arithmetic, then scale to [0, 100]. */
  function Percent(vcc: u32): (p: int)
    ensures 0 <= p <= 100
    ensures vcc >= MaxVcc ==> p == 100
    ensures vcc <= MinVcc ==> p == 0
  {
    var clamped := if vcc > MaxVcc then MaxVcc else if vcc < MinVcc then MinVcc else vcc;
    (clamped - MinVcc) * 100 / (MaxVcc - MinVcc)
  }

  /** A higher voltage never reports a lower percentage. */
  lemma PercentMonotone(a: u32, b: u32)
    requires a <= b
    ensures Percent(a) <= Percent(b)
  {
    var ca := if a > MaxVcc then MaxVcc else if a < MinVcc then MinVcc else a;
    var cb := if b > MaxVcc then MaxVcc else if b < MinVcc then MinVcc else b;
    assert ca <= cb;
    assert (ca - MinVcc) * 100 <= (cb - MinVcc) * 100;
  }

  /** Where the source's arithmetic does not wrap (vcc at or above MIN_VCC) the
      corrected percentage is exactly what the source computes. */
  lemma AgreesFromMinVcc(vcc: u32)
    requires vcc >= MinVcc
    ensures PercentAsWritten(vcc) == Percent(vcc)
  {
  }
}

=== FILE: ble.dfy ===
/** The BLE configuration service of main/ble.c: the GATT read/write dispatch
    onto the store, the bounded event queue towards the BLE task, the
    advertising handshake and connection tracking. Bluedroid calls become
    effects; the attribute tables are constant data and only the handles the
    code looks up are kept. */
module Ble {
  import opened Bytes
  import opened Wrappers
  import Nvs

  /** `ble_event_t`. */
  datatype Event = Connect | Disconnect | PeriodUpdate | LoraUpdated

  /** `xQueueCreate(5, …)` in `ble_init`. */
  const QueueCapacity: nat := 5

  type Queue = q: seq<Event> | |q| <= QueueCapacity

  /** `xQueueSend(…, 0)`: a full queue rejects the new event at once. */
  function Send(q: Queue, e: Event): (r: Queue)
    ensures |q| < QueueCapacity ==> r == q + [e]
    ensures |q| == QueueCapacity ==> r == q
  {
    if |q| < QueueCapacity then q + [e] else q
  }

  /** `xQueueReceive`: the oldest event, or nothing when empty. */
  function Receive(q: Queue): (r: Option<(Event, Queue)>)
    ensures r.None? <==> q == []
    ensures r.Some? ==> [r.value.0] + r.value.1 == q
  {
    if q == [] then None else Some((q[0], q[1..]))
  }

  /** A queue that had room returns its old contents before the new event. */
  lemma SendThenReceive(q: Queue, e: Event)
    requires |q| < QueueCapacity
    ensures q == [] ==> Receive(Send(q, e)) == Some((e, []))
    ensures q != [] ==> Receive(Send(q, e)) == Some((q[0], Send(q[1..], e)))
  {
    if q != [] {
      assert (q + [e])[1..] == q[1..] + [e];
    }
  }

  function SendAll(q: Queue, es: seq<Event>): Queue
    decreases es
  {
    if es == [] then q else SendAll(Send(q, es[0]), es[1..])
  }

  /** Sending a burst keeps the old contents and the earliest events that fit;
      the rest are dropped. */
  lemma {:induction false} SendAllKeepsPrefix(q: Queue, es: seq<Event>)
    ensures var room := QueueCapacity - |q|;
      SendAll(q, es) == q + es[..if |es| < room then |es| else room]
    decreases es
  {
    if es != [] {
      SendAllKeepsPrefix(Send(q, es[0]), es[1..]);
      if |q| < QueueCapacity {
        assert es[..1] + es[1..][..if |es| - 1 < QueueCapacity - |q| - 1 then |es| - 1 else QueueCapacity - |q| - 1]
          == es[..if |es| < QueueCapacity - |q| then |es| else QueueCapacity - |q|];
      }
    }
  }

  /** The configuration characteristics of the LoRa service. */
  datatype Attr = AttrPeriod | AttrJoinEui | AttrDevEui | AttrAppKey | AttrNwkKey | AttrPayloadFormat | AttrConfirmed

  /** The value handles of `lora_handle_table`, filled in when the attribute
      table is created (all zero before). */
  datatype HandleTable = HandleTable(
    period: u16, joinEui: u16, devEui: u16, appKey: u16, nwkKey: u16, payloadFormat: u16, confirmed: u16)

  /** The `if … else if` chain of `gatts_read` and `gatts_write`: the first
      attribute whose handle matches. */
  function Resolve(t: HandleTable, handle: u16): (a: Option<Attr>)
    ensures a == Some(AttrPeriod) <==> handle == t.period
    ensures a.None? <==> handle !in {t.period, t.joinEui, t.devEui, t.appKey, t.nwkKey, t.payloadFormat, t.confirmed}
  {
    if handle == t.period then Some(AttrPeriod)
    else if handle == t.joinEui then Some(AttrJoinEui)
    else if handle == t.devEui then Some(AttrDevEui)
    else if handle == t.appKey then Some(AttrAppKey)
    else if handle == t.nwkKey then Some(AttrNwkKey)
    else if handle == t.payloadFormat then Some(AttrPayloadFormat)
    else if handle == t.confirmed then Some(AttrConfirmed)
    else None
  }

  /** With pairwise distinct handles every attribute is reachable by its own handle. */
  predicate Distinct(t: HandleTable)
  {
    |{t.period, t.joinEui, t.devEui, t.appKey, t.nwkKey, t.payloadFormat, t.confirmed}| == 7
  }

  function HandleOf(t: HandleTable, a: Attr): u16
  {
    match a
    case AttrPeriod => t.period
    case AttrJoinEui => t.joinEui
    case AttrDevEui => t.devEui
    case AttrAppKey => t.appKey
    case AttrNwkKey => t.nwkKey
    case AttrPayloadFormat => t.payloadFormat
    case AttrConfirmed => t.confirmed
  }

  lemma ResolveHandleOf(t: HandleTable, a: Attr)
    requires Distinct(t)
    ensures Resolve(t, HandleOf(t, a)) == Some(a)
  {
  }

  /** The store key each attribute is kept under. */
  function StorageKey(a: Attr): Nvs.Key
  {
    match a
    case AttrPeriod => Nvs.Period
    case AttrJoinEui => Nvs.LoraJoinEui
    case AttrDevEui => Nvs.LoraDevEui
    case AttrAppKey => Nvs.LoraAppKey
    case AttrNwkKey => Nvs.LoraNwkKey
    case AttrPayloadFormat => Nvs.PayloadFormat
    case AttrConfirmed => Nvs.Confirmed
  }

  /** The fixed value length of each attribute in bytes. */
  function Length(a: Attr): nat
  {
    match a
    case AttrPeriod => 2
    case AttrJoinEui => 8
    case AttrDevEui => 8
    case AttrAppKey => 16
    case AttrNwkKey => 16
    case AttrPayloadFormat => 1
    case AttrConfirmed => 1
  }

  /** The event a write to the attribute queues for the BLE task. */
  function EventOf(a: Attr): Option<Event>
  {
    match a
    case AttrPeriod => Some(PeriodUpdate)
    case AttrPayloadFormat => None
    case AttrConfirmed => None
    case _ => Some(LoraUpdated)
  }

  lemma AttrTable(a: Attr)
    ensures a == AttrPeriod ==> Length(a) == 2 && EventOf(a) == Some(PeriodUpdate)
    ensures a in {AttrJoinEui, AttrDevEui} ==> Length(a) == 8 && EventOf(a) == Some(LoraUpdated)
    ensures a in {AttrAppKey, AttrNwkKey} ==> Length(a) == 16 && EventOf(a) == Some(LoraUpdated)
    ensures a in {AttrPayloadFormat, AttrConfirmed} ==> Length(a) == 1 && EventOf(a).None?
  {
  }

  lemma StorageKeysDistinct(a: Attr, b: Attr)
    ensures a != b ==> StorageKey(a) != StorageKey(b)
  {
  }

  /** The first `n` bytes of a written value. The stack copies `n` bytes
      whatever the write's length; bytes past its end are taken as zero. */
  function Take(value: seq<u8>, n: nat): (r: seq<u8>)
    ensures |r| == n
    ensures forall i :: 0 <= i < n ==> r[i] == (if i < |value| then value[i] else 0)
  {
    if |value| >= n then value[..n] else value + Zeros(n - |value|)
  }

  /** The store entry a write of `value` to attribute `a` produces. */
  function Stored(a: Attr, value: seq<u8>): (v: Nvs.Value)
    ensures a == AttrPeriod ==> v.U16?
    ensures a in {AttrPayloadFormat, AttrConfirmed} ==> v.U8?
    ensures a !in {AttrPeriod, AttrPayloadFormat, AttrConfirmed} ==> v.Blob? && |v.bytes| == Length(a)
  {
    match a
    case AttrPeriod => Nvs.U16(ReadLittleEndian16(Take(value, 2)))
    case AttrPayloadFormat => Nvs.U8(Take(value, 1)[0])
    case AttrConfirmed => Nvs.U8(Take(value, 1)[0])
    case _ => Nvs.Blob(Take(value, Length(a)))
  }

  /** `esp_ble_gatts_send_response`: `Some(v)` carries an attribute value, `None`
      the NULL response. */
  datatype Response = Response(value: Option<seq<u8>>)

  datatype Written = Written(store: Nvs.Store, queue: Queue, response: Option<Response>)

  /** `gatts_write`. */
  function Write(t: HandleTable, store: Nvs.Store, q: Queue, handle: u16, value: seq<u8>, needRsp: bool, isPrep: bool): (w: Written)
    ensures Resolve(t, handle).None? ==> w.store == store && w.queue == q
    ensures Resolve(t, handle).Some? ==>
      var a := Resolve(t, handle).value;
      && w.store == store[StorageKey(a) := Stored(a, value)]
      && w.queue == (if EventOf(a).Some? then Send(q, EventOf(a).value) else q)
    ensures w.response.Some? <==> needRsp
    ensures w.response.Some? ==> (w.response.value.value.Some? <==> isPrep)
    ensures w.response.Some? && isPrep ==> w.response.value.value == Some(value)
  {
    var rsp := if !needRsp then None else if isPrep then Some(Response(Some(value))) else Some(Response(None));
    match Resolve(t, handle)
    case None => Written(store, q, rsp)
    case Some(a) =>
      var q' := match EventOf(a) case Some(e) => Send(q, e) case None => q;
      Written(store[StorageKey(a) := Stored(a, value)], q', rsp)
  }

  /** `gatts_read`: the response has the attribute's fixed length. A stored
      value that fits is copied over the zeroed buffer; a missing key, or a
      blob longer than the buffer, leaves it zero. Unknown handles get no
      response. */
  function Read(t: HandleTable, store: Nvs.Store, handle: u16): (r: Option<seq<u8>>)
    ensures r.Some? <==> Resolve(t, handle).Some?
    ensures r.Some? ==> |r.value| == Length(Resolve(t, handle).value)
  {
    match Resolve(t, handle)
    case None => None
    case Some(a) =>
      var k := StorageKey(a);
      Some(
        if a == AttrPeriod then
          LittleEndian16(Nvs.GetU16(store, k, 0))
        else if a == AttrPayloadFormat || a == AttrConfirmed then
          [Nvs.GetU8(store, k, 0)]
        else if Nvs.HasBlob(store, k) && |store[k].bytes| <= Length(a) then
          store[k].bytes + Zeros(Length(a) - |store[k].bytes|)
        else Zeros(Length(a)))
  }

  /** A full-length write is read back unchanged. */
  lemma WriteThenRead(t: HandleTable, store: Nvs.Store, q: Queue, handle: u16, value: seq<u8>, needRsp: bool, isPrep: bool)
    requires Resolve(t, handle).Some? && |value| == Length(Resolve(t, handle).value)
    ensures Read(t, Write(t, store, q, handle, value, needRsp, isPrep).store, handle) == Some(value)
  {
    var a := Resolve(t, handle).value;
    assert Take(value, Length(a)) == value;
    if a == AttrPeriod {
      ReadThenWriteLittleEndian16(value);
    } else if a == AttrPayloadFormat || a == AttrConfirmed {
      assert [value[0]] == value;
    } else {
      assert value + Zeros(0) == value;
    }
  }

  /** A write touches only its own attribute's key. */
  lemma WriteLeavesOtherKeys(t: HandleTable, store: Nvs.Store, q: Queue, handle: u16, value: seq<u8>, needRsp: bool, isPrep: bool, k: Nvs.Key)
    requires Resolve(t, handle).None? || k != StorageKey(Resolve(t, handle).value)
    ensures var s := Write(t, store, q, handle, value, needRsp, isPrep).store;
      (k in s <==> k in store) && (k in store ==> s[k] == store[k])
  {
  }

  /** Bluedroid calls the handlers make. */
  datatype Effect =
    | SendResponse(rsp: Response)
    | StartAdvertising
    | SetAttr(handle: u16, value: seq<u8>)
    /** `esp_ble_gatts_send_indicate` with `need_confirm` false, as every call
        passes it: a notification, which the client does not acknowledge. */
    | Notify(handle: u16, value: seq<u8>)

  /** The module's static state. `advPending` and `scanRspPending` are the two
      bits of `adv_config_done` (ADV_CONFIG_FLAG and SCAN_RSP_CONFIG_FLAG), the
      only bits it ever holds. */
  datatype State = State(
    gattsIf: u8, connId: u16, hasConnection: bool,
    advPending: bool, scanRspPending: bool,
    queue: Queue, table: HandleTable,
    sensors: SensorHandles, batteryLevel: u8)

  /** The BLE statics as every wake finds them: none of them lives in RTC
      memory, so the interface, the connection id and flag, the advertising
      flags and `bat_lvl_val` start at zero. The handle tables are the ones the
      attribute tables were registered under. */
  function Fresh(table: HandleTable, sensors: SensorHandles): (s: State)
    ensures s.table == table && s.sensors == sensors
    ensures !HasContext(s) && s.connId == 0 && !s.hasConnection
    ensures !s.advPending && !s.scanRspPending && s.queue == [] && s.batteryLevel == 0
  {
    State(0, 0, false, false, false, [], table, sensors, 0)
  }

  /** `ble_init`: a fresh, empty event queue; the other statics keep their values. */
  function Init(s: State): (r: State)
    ensures r.queue == [] && r.gattsIf == s.gattsIf && r.hasConnection == s.hasConnection
  {
    s.(queue := [])
  }

  /** `ble_has_context`. */
  predicate HasContext(s: State)
  {
    s.gattsIf != 0
  }

  /** `ble_deinit`: unregister, forget the interface and delete the queue. */
  function Deinit(s: State): (r: State)
    ensures !HasContext(r) && r.queue == []
    ensures r.hasConnection == s.hasConnection && r.table == s.table
  {
    s.(gattsIf := 0, queue := [])
  }

  datatype GattsEvent =
    | RegEvt(gattsIf: u8)
    | ConnectEvt(connId: u16)
    | DisconnectEvt
    | ReadEvt(handle: u16)
    | WriteEvt(handle: u16, value: seq<u8>, needRsp: bool, isPrep: bool)
    | OtherGattsEvt

  datatype Handled = Handled(state: State, store: Nvs.Store, effects: seq<Effect>)

  /** `gatts_event_handler`. */
  function HandleGatts(s: State, store: Nvs.Store, ev: GattsEvent): (h: Handled)
    ensures ev.RegEvt? ==> h.state.gattsIf == ev.gattsIf && h.state.advPending && h.state.scanRspPending
    ensures ev.ConnectEvt? ==> h.state.hasConnection && h.state.connId == ev.connId && h.state.queue == Send(s.queue, Connect)
    ensures ev.DisconnectEvt? ==> !h.state.hasConnection && h.state.queue == Send(s.queue, Disconnect)
    ensures StartAdvertising in h.effects <==> ev.DisconnectEvt?
    ensures !ev.WriteEvt? ==> h.store == store
    ensures ev.ReadEvt? ==> h.state == s
    ensures ev.ReadEvt? ==> (h.effects != [] <==> Resolve(s.table, ev.handle).Some?)
    ensures h.state.table == s.table
  {
    match ev
    case RegEvt(i) => Handled(s.(gattsIf := i, advPending := true, scanRspPending := true), store, [])
    case ConnectEvt(c) => Handled(s.(connId := c, hasConnection := true, queue := Send(s.queue, Connect)), store, [])
    case DisconnectEvt =>
      Handled(s.(hasConnection := false, queue := Send(s.queue, Disconnect)), store, [StartAdvertising])
    case ReadEvt(handle) =>
      Handled(s, store, match Read(s.table, store, handle) case None => [] case Some(v) => [SendResponse(Response(Some(v)))])
    case WriteEvt(handle, value, needRsp, isPrep) =>
      var w := Write(s.table, store, s.queue, handle, value, needRsp, isPrep);
      Handled(s.(queue := w.queue), w.store, match w.response case None => [] case Some(r) => [SendResponse(r)])
    case OtherGattsEvt => Handled(s, store, [])
  }

  datatype GapEvent = AdvDataSetComplete | ScanRspDataSetComplete | OtherGapEvt

  /** `gap_event_handler`: a completion clears its flag; advertising starts when
      no flag is left. */
  function HandleGap(s: State, ev: GapEvent): (r: (State, seq<Effect>))
    ensures ev == AdvDataSetComplete ==> !r.0.advPending && r.0.scanRspPending == s.scanRspPending
    ensures ev == ScanRspDataSetComplete ==> !r.0.scanRspPending && r.0.advPending == s.advPending
    ensures ev == OtherGapEvt ==> r.0 == s
    ensures r.1 == [] || r.1 == [StartAdvertising]
    ensures r.1 == [StartAdvertising] <==> ev != OtherGapEvt && !r.0.advPending && !r.0.scanRspPending
  {
    var s' := match ev
      case AdvDataSetComplete => s.(advPending := false)
      case ScanRspDataSetComplete => s.(scanRspPending := false)
      case OtherGapEvt => s;
    (s', if ev != OtherGapEvt && !s'.advPending && !s'.scanRspPending then [StartAdvertising] else [])
  }

  /** Effects of a run of GAP events, and the state after them. */
  function RunGap(s: State, evs: seq<GapEvent>): (State, seq<Effect>)
    decreases evs
  {
    if evs == [] then (s, [])
    else
      var (s1, e1) := HandleGap(s, evs[0]);
      var (s2, e2) := RunGap(s1, evs[1..]);
      (s2, e1 + e2)
  }

  /** After registration set both flags, advertising is started by a run of GAP
      events exactly when both completions occur in it. */
  lemma {:induction false} GapHandshake(s: State, evs: seq<GapEvent>)
    requires s.advPending || s.scanRspPending
    ensures StartAdvertising in RunGap(s, evs).1 <==>
      (s.advPending ==> AdvDataSetComplete in evs) && (s.scanRspPending ==> ScanRspDataSetComplete in evs)
    decreases evs
  {
    if evs != [] {
      var (s1, e1) := HandleGap(s, evs[0]);
      var (s2, e2) := RunGap(s1, evs[1..]);
      assert RunGap(s, evs).1 == e1 + e2;
      if s1.advPending || s1.scanRspPending {
        GapHandshake(s1, evs[1..]);
        assert e1 == [];
      } else {
        assert StartAdvertising in e1;
      }
      assert evs == [evs[0]] + evs[1..];
    }
  }

  /** The entries of `bat_serv_handle_table` and `env_sens_handle_table` the
      setters look up: the battery level characteristic's declaration
      (BAT_SERV_IDX_CHAR_BAT_LVL) and value (BAT_SERV_IDX_CHAR_VAL_BAT_LVL)
      handles, and the humidity and temperature value handles. */
  datatype SensorHandles = SensorHandles(batteryDecl: u16, batteryValue: u16, humidity: u16, temperature: u16)

  /** The four handles are those of four different attributes. */
  predicate Separate(h: SensorHandles)
  {
    h.batteryDecl != h.batteryValue && h.batteryDecl != h.humidity && h.batteryDecl != h.temperature
    && h.batteryValue != h.humidity && h.batteryValue != h.temperature && h.humidity != h.temperature
  }

  /** The attribute values Bluedroid holds, which a client reads. */
  type AttrDb = map<u16, seq<u8>>

  /** The database after a run of effects: each `esp_ble_gatts_set_attr_value`
      replaces the value at its handle, whatever attribute the handle names;
      notifications and responses change none. */
  function Apply(db: AttrDb, effects: seq<Effect>): AttrDb
    decreases |effects|
  {
    if effects == [] then db
    else
      var db' := match effects[0] case SetAttr(h, v) => db[h := v] case _ => db;
      Apply(db', effects[1..])
  }

  /** `ble_set_battery` as written: it remembers the level, then sets and
      (while connected) notifies the attribute at BAT_SERV_IDX_CHAR_BAT_LVL,
      which is the characteristic declaration, not its value. */
  function SetBattery(s: State, level: u8): (r: (State, seq<Effect>))
    ensures r.0 == s.(batteryLevel := level)
    ensures SetAttr(s.sensors.batteryDecl, [level]) in r.1
    ensures forall e :: e in r.1 ==> (e.SetAttr? || e.Notify?) && e.handle == s.sensors.batteryDecl
    ensures (exists e :: e in r.1 && e.Notify?) <==> s.hasConnection
  {
    var e := [SetAttr(s.sensors.batteryDecl, [level])];
    if s.hasConnection then
      assert (e + [Notify(s.sensors.batteryDecl, [level])])[1].Notify?;
      (s.(batteryLevel := level), e + [Notify(s.sensors.batteryDecl, [level])])
    else (s.(batteryLevel := level), e)
  }

  /** As written, the set and the notification of the battery update are
      addressed to the declaration handle: the value a client reads is left as
      it was, and a connected client is notified under the declaration handle.
      Under `Apply` the declaration attribute takes the level byte. */
  lemma SetBatteryHitsDeclaration(s: State, level: u8, db: AttrDb)
    requires Separate(s.sensors)
    ensures var db' := Apply(db, SetBattery(s, level).1);
      && db' == db[s.sensors.batteryDecl := [level]]
      && (s.sensors.batteryValue in db' <==> s.sensors.batteryValue in db)
      && (s.sensors.batteryValue in db ==> db'[s.sensors.batteryValue] == db[s.sensors.batteryValue])
    ensures s.hasConnection ==> Notify(s.sensors.batteryDecl, [level]) in SetBattery(s, level).1
  {
    var sets := [SetAttr(s.sensors.batteryDecl, [level])];
    ApplySingle(db, sets[0]);
    if s.hasConnection {
      var ind := [Notify(s.sensors.batteryDecl, [level])];
      ApplyConcat(db, sets, ind);
      ApplySingle(Apply(db, sets), ind[0]);
    }
  }

  /** The evidently intended `ble_set_battery`: set and notify the battery
      level's value handle, as `ble_set_enviromental` does. */
  function SetBatteryCorrected(s: State, level: u8): (r: (State, seq<Effect>))
    ensures r.0 == s.(batteryLevel := level)
    ensures forall e :: e in r.1 ==> (e.SetAttr? || e.Notify?) && e.handle == s.sensors.batteryValue && e.value == [level]
    ensures (exists e :: e in r.1 && e.Notify?) <==> s.hasConnection
  {
    var e := [SetAttr(s.sensors.batteryValue, [level])];
    if s.hasConnection then
      assert (e + [Notify(s.sensors.batteryValue, [level])])[1].Notify?;
      (s.(batteryLevel := level), e + [Notify(s.sensors.batteryValue, [level])])
    else (s.(batteryLevel := level), e)
  }

  /** After the corrected update a client reading the battery level gets the
      new level, and no other attribute changes. */
  lemma SetBatteryCorrectedPublishes(s: State, level: u8, db: AttrDb)
    ensures Apply(db, SetBatteryCorrected(s, level).1) == db[s.sensors.batteryValue := [level]]
  {
    var sets := [SetAttr(s.sensors.batteryValue, [level])];
    ApplySingle(db, sets[0]);
    if s.hasConnection {
      var ind := [Notify(s.sensors.batteryValue, [level])];
      ApplyConcat(db, sets, ind);
      ApplySingle(Apply(db, sets), ind[0]);
    }
  }

  /** `ble_set_enviromental`, with the ×100 scaling and float conversion done
      by the caller: store humidity, temperature and the remembered battery
      level, and notify the first two while connected. */
  function SetEnvironmental(s: State, humidity: u16, temperature: i16): (effects: seq<Effect>)
    ensures |effects| == 3 || |effects| == 5
    ensures forall e :: e in effects && e.SetAttr? ==> e.handle in {s.sensors.humidity, s.sensors.temperature, s.sensors.batteryValue}
    ensures forall e :: e in effects && e.Notify? ==> e.handle in {s.sensors.humidity, s.sensors.temperature}
    ensures (exists e :: e in effects && e.Notify?) <==> s.hasConnection
  {
    var sets := [SetAttr(s.sensors.humidity, LittleEndian16(humidity)),
                 SetAttr(s.sensors.temperature, LittleEndian16(Bits16(temperature))),
                 SetAttr(s.sensors.batteryValue, [s.batteryLevel])];
    if s.hasConnection then
      var ind := [Notify(s.sensors.humidity, LittleEndian16(humidity)),
                  Notify(s.sensors.temperature, LittleEndian16(Bits16(temperature)))];
      assert (sets + ind)[3].Notify?;
      sets + ind
    else sets
  }

  /** A client reads back the humidity and temperature handed in, in the
      ESP32's little-endian byte order, and the level last given to the
      battery setter. */
  lemma EnvironmentalPublishes(s: State, humidity: u16, temperature: i16, db: AttrDb)
    requires Separate(s.sensors)
    ensures var db' := Apply(db, SetEnvironmental(s, humidity, temperature));
      && s.sensors.humidity in db' && s.sensors.temperature in db' && s.sensors.batteryValue in db'
      && |db'[s.sensors.humidity]| == 2 && |db'[s.sensors.temperature]| == 2
      && ReadLittleEndian16(db'[s.sensors.humidity]) == humidity
      && Signed16(ReadLittleEndian16(db'[s.sensors.temperature])) == temperature
      && db'[s.sensors.batteryValue] == [s.batteryLevel]
  {
    var e := SetEnvironmental(s, humidity, temperature);
    var db1 := db[s.sensors.humidity := LittleEndian16(humidity)];
    var db2 := db1[s.sensors.temperature := LittleEndian16(Bits16(temperature))];
    var db3 := db2[s.sensors.batteryValue := [s.batteryLevel]];
    ApplySingle(db, e[0]);
    ApplyConcat(db, [e[0]], [e[1]]);
    ApplySingle(db1, e[1]);
    ApplyConcat(db, [e[0], e[1]], [e[2]]);
    ApplySingle(db2, e[2]);
    assert e[..3] == [e[0], e[1]] + [e[2]];
    ApplyIgnoresNotifications(db, e, 3);
    LittleEndian16RoundTrip(humidity);
    LittleEndian16RoundTrip(Bits16(temperature));
    Signed16OfBits16(temperature);
  }

  lemma ApplySingle(db: AttrDb, x: Effect)
    ensures Apply(db, [x]) == match x case SetAttr(h, v) => db[h := v] case _ => db
  {
    assert [x][1..] == [];
  }

  /** Effects past position k that set nothing leave the database as after the
      first k. */
  lemma {:induction false} ApplyIgnoresNotifications(db: AttrDb, e: seq<Effect>, k: nat)
    requires k <= |e|
    requires forall i :: k <= i < |e| ==> !e[i].SetAttr?
    ensures Apply(db, e) == Apply(db, e[..k])
    decreases |e|
  {
    if e != [] {
      var db' := match e[0] case SetAttr(h, v) => db[h := v] case _ => db;
      if k == 0 {
        ApplyIgnoresNotifications(db', e[1..], 0);
        assert Apply(db', e[1..]) == db' by {
          assert e[1..][..0] == [];
        }
        assert e[..0] == [];
      } else {
        ApplyIgnoresNotifications(db', e[1..], k - 1);
        assert e[..k][1..] == e[1..][..k - 1];
      }
    }
  }

  /** `ble_set_battery` then `ble_set_enviromental`, as every profile calls
      them, with the battery setter as written. */
  function Publish(s: State, battery: u8, humidity: u16, temperature: i16): (r: (State, seq<Effect>))
    ensures r.0 == s.(batteryLevel := battery)
    ensures (exists e :: e in r.1 && e.Notify?) <==> s.hasConnection
    ensures s.hasConnection ==> Notify(s.sensors.batteryDecl, [battery]) in r.1
    ensures forall e :: e in r.1 && e.Notify? ==> e.handle in {s.sensors.batteryDecl, s.sensors.humidity, s.sensors.temperature}
  {
    var (s1, e1) := SetBattery(s, battery);
    var e2 := SetEnvironmental(s1, humidity, temperature);
    assert forall e :: e in e1 ==> e in e1 + e2;
    assert forall e :: e in e2 ==> e in e1 + e2;
    (s1, e1 + e2)
  }

  /** What a client reads after `Publish`: the misaddressed battery set does
      not matter to the value attribute, because `ble_set_enviromental` stores
      the level just remembered there (main/ble.c:505). */
  lemma PublishReadsBack(s: State, battery: u8, humidity: u16, temperature: i16, db: AttrDb)
    requires Separate(s.sensors)
    ensures var db' := Apply(db, Publish(s, battery, humidity, temperature).1);
      && s.sensors.humidity in db' && s.sensors.temperature in db' && s.sensors.batteryValue in db'
      && |db'[s.sensors.humidity]| == 2 && |db'[s.sensors.temperature]| == 2
      && ReadLittleEndian16(db'[s.sensors.humidity]) == humidity
      && Signed16(ReadLittleEndian16(db'[s.sensors.temperature])) == temperature
      && db'[s.sensors.batteryValue] == [battery]
  {
    var (s1, e1) := SetBattery(s, battery);
    var e2 := SetEnvironmental(s1, humidity, temperature);
    ApplyConcat(db, e1, e2);
    EnvironmentalPublishes(s1, humidity, temperature, Apply(db, e1));
  }

  /** Applying two runs of effects is applying their concatenation. */
  lemma {:induction false} ApplyConcat(db: AttrDb, e1: seq<Effect>, e2: seq<Effect>)
    ensures Apply(db, e1 + e2) == Apply(Apply(db, e1), e2)
    decreases |e1|
  {
    if e1 != [] {
      var db' := match e1[0] case SetAttr(h, v) => db[h := v] case _ => db;
      assert (e1 + e2)[0] == e1[0];
      assert (e1 + e2)[1..] == e1[1..] + e2;
      ApplyConcat(db', e1[1..], e2);
    } else {
      assert e1 + e2 == e2;
    }
  }
}

=== FILE: bytes.dfy ===
/** Byte-level helpers shared by the payload encoders and the BLE attribute codec:
    the C integer types the firmware uses, as ranges of mathematical integers,
    and their byte layouts. Shifts and masks of the C code are written as
    division and remainder by powers of two. */
module Bytes {

  /** C's `uint8_t`. */
  type u8 = x: int | 0 <= x < 0x100

  /** C's `uint16_t`. */
  type u16 = x: int | 0 <= x < 0x1_0000

  /** C's `int16_t`. */
  type i16 = x: int | -0x8000 <= x < 0x8000

  /** C's `uint32_t`. */
  type u32 = x: int | 0 <= x < 0x1_0000_0000

  /** C's `uint64_t`. */
  type u64 = x: int | 0 <= x < 0x1_0000_0000_0000_0000

  function LowByte(w: u16): u8
  {
    w % 0x100
  }

  function HighByte(w: u16): u8
  {
    w / 0x100
  }

  /** The 16-bit word whose high byte is `hi` and whose low byte is `lo`. */
  function Join16(hi: u8, lo: u8): u16
  {
    hi * 0x100 + lo
  }

  lemma SplitThenJoin16(w: u16)
    ensures Join16(HighByte(w), LowByte(w)) == w
  {
  }

  lemma JoinThenSplit16(hi: u8, lo: u8)
    ensures HighByte(Join16(hi, lo)) == hi && LowByte(Join16(hi, lo)) == lo
  {
  }

  /** Two's-complement bit pattern of a signed 16-bit value: what C stores when an
      `int16_t` is written out as raw bits (and what `v >> 8` followed by a
      truncation to `uint8_t` takes the high byte of). */
  function Bits16(v: i16): u16
  {
    if v < 0 then v + 0x1_0000 else v
  }

  /** The signed value a 16-bit pattern denotes when read back as `int16_t`. */
  function Signed16(w: u16): i16
  {
    if w < 0x8000 then w else w - 0x1_0000
  }

  lemma Signed16OfBits16(v: i16)
    ensures Signed16(Bits16(v)) == v
  {
  }

  lemma Bits16OfSigned16(w: u16)
    ensures Bits16(Signed16(w)) == w
  {
  }

  function BigEndian16(w: u16): (s: seq<u8>)
    ensures |s| == 2
  {
    [HighByte(w), LowByte(w)]
  }

  /** Host order of the ESP32 (little-endian), as a packed struct lays a `uint16_t` out. */
  function LittleEndian16(w: u16): (s: seq<u8>)
    ensures |s| == 2
  {
    [LowByte(w), HighByte(w)]
  }

  function LittleEndian32(w: u32): (s: seq<u8>)
    ensures |s| == 4
  {
    [w % 0x100, (w / 0x100) % 0x100, (w / 0x1_0000) % 0x100, w / 0x100_0000]
  }

  /** What `memcpy` of two bytes into a `uint16_t` reads on the ESP32. */
  function ReadLittleEndian16(s: seq<u8>): u16
    requires |s| >= 2
  {
    Join16(s[1], s[0])
  }

  function ReadLittleEndian32(s: seq<u8>): u32
    requires |s| >= 4
  {
    s[0] as int + s[1] as int * 0x100 + s[2] as int * 0x1_0000 + s[3] as int * 0x100_0000
  }

  lemma LittleEndian16RoundTrip(w: u16)
    ensures ReadLittleEndian16(LittleEndian16(w)) == w
  {
  }

  lemma ReadThenWriteLittleEndian16(s: seq<u8>)
    requires |s| == 2
    ensures LittleEndian16(ReadLittleEndian16(s)) == s
  {
  }

  lemma LittleEndian32RoundTrip(w: u32)
    ensures ReadLittleEndian32(LittleEndian32(w)) == w
  {
    var q1, q2 := w / 0x100, w / 0x1_0000;
    assert w == w % 0x100 + 0x100 * q1;
    assert q1 == q1 % 0x100 + 0x100 * q2 by {
      assert q1 / 0x100 == q2;
    }
    assert q2 == q2 % 0x100 + 0x100 * (w / 0x100_0000) by {
      assert q2 / 0x100 == w / 0x100_0000;
    }
  }

  function Zeros(n: nat): (s: seq<u8>)
    ensures |s| == n && forall i :: 0 <= i < n ==> s[i] == 0
  {
    seq(n, _ => 0)
  }
}

=== FILE: cayenne.dfy ===
/** The Cayenne Low Power Payload (myDevices LPP) type table of main/cayenne.h and a
    codec for LPP frames: each record is a channel byte, a type byte, and as many
    data bytes as the type's size. */
module Cayenne {
  import opened Bytes
  import opened Wrappers

  datatype LppType =
    | DigitalInput | DigitalOutput | AnalogInput | AnalogOutput
    | Luminosity | Presence | Temperature | RelativeHumidity
    | Accelerometer | BarometricPressure | Gyrometer | Gps

  /** The type byte sent on air. */
  function Code(t: LppType): u8
  {
    match t
    case DigitalInput => 0
    case DigitalOutput => 1
    case AnalogInput => 2
    case AnalogOutput => 3
    case Luminosity => 101
    case Presence => 102
    case Temperature => 103
    case RelativeHumidity => 104
    case Accelerometer => 113
    case BarometricPressure => 115
    case Gyrometer => 134
    case Gps => 136
  }

  /** The type a received type byte names, if any. */
  function TypeOf(code: u8): (r: Option<LppType>)
    ensures r.Some? ==> Code(r.value) == code
  {
    match code
    case 0 => Some(DigitalInput)
    case 1 => Some(DigitalOutput)
    case 2 => Some(AnalogInput)
    case 3 => Some(AnalogOutput)
    case 101 => Some(Luminosity)
    case 102 => Some(Presence)
    case 103 => Some(Temperature)
    case 104 => Some(RelativeHumidity)
    case 113 => Some(Accelerometer)
    case 115 => Some(BarometricPressure)
    case 134 => Some(Gyrometer)
    case 136 => Some(Gps)
    case _ => None
  }

  /** Every type byte decodes back to its type, so no two types share a code. */
  lemma CodeRoundTrip(t: LppType)
    ensures TypeOf(Code(t)) == Some(t)
  {
  }

  lemma CodesDistinct(t: LppType, u: LppType)
    requires t != u
    ensures Code(t) != Code(u)
  {
    CodeRoundTrip(t);
    CodeRoundTrip(u);
  }

  /** Data bytes per record. The accelerometer and gyrometer carry three axes of
      two bytes; the GPS carries latitude, longitude and altitude of three bytes. */
  function DataSize(t: LppType): nat
  {
    match t
    case DigitalInput => 1
    case DigitalOutput => 1
    case AnalogInput => 2
    case AnalogOutput => 2
    case Luminosity => 2
    case Presence => 1
    case Temperature => 2
    case RelativeHumidity => 1
    case Accelerometer => 6
    case BarometricPressure => 2
    case Gyrometer => 6
    case Gps => 9
  }

  function IsSigned(t: LppType): bool
  {
    t in {AnalogInput, AnalogOutput, Temperature, Accelerometer, Gyrometer, Gps}
  }

  /** The value of one least-significant bit, as the fraction num/den of the unit. */
  datatype Resolution = Resolution(num: nat, den: nat)

  function ResolutionOf(t: LppType): Resolution
  {
    match t
    case DigitalInput => Resolution(1, 1)
    case DigitalOutput => Resolution(1, 1)
    case AnalogInput => Resolution(1, 100)
    case AnalogOutput => Resolution(1, 100)
    case Luminosity => Resolution(1, 1)
    case Presence => Resolution(1, 1)
    case Temperature => Resolution(1, 10)
    case RelativeHumidity => Resolution(1, 2)
    case Accelerometer => Resolution(1, 1000)
    case BarometricPressure => Resolution(1, 10)
    case Gyrometer => Resolution(1, 100)
    case Gps => Resolution(1, 10000)
  }

  /** The entries of the table the firmware's encoders rely on. */
  lemma TableEntries()
    ensures DataSize(RelativeHumidity) == 1 && !IsSigned(RelativeHumidity)
            && ResolutionOf(RelativeHumidity) == Resolution(1, 2)
    ensures DataSize(Temperature) == 2 && IsSigned(Temperature)
            && ResolutionOf(Temperature) == Resolution(1, 10)
    ensures DataSize(AnalogInput) == 2 && IsSigned(AnalogInput)
            && ResolutionOf(AnalogInput) == Resolution(1, 100)
    ensures DataSize(BarometricPressure) == 2 && !IsSigned(BarometricPressure)
            && ResolutionOf(BarometricPressure) == Resolution(1, 10)
    ensures DataSize(DigitalOutput) == 1
  {
  }

  datatype Record = Record(channel: u8, kind: LppType, data: seq<u8>)

  predicate WellFormed(r: Record)
  {
    |r.data| == DataSize(r.kind)
  }

  predicate AllWellFormed(rs: seq<Record>)
  {
    forall i :: 0 <= i < |rs| ==> WellFormed(rs[i])
  }

  function EncodeRecord(r: Record): seq<u8>
  {
    [r.channel, Code(r.kind)] + r.data
  }

  function Encode(rs: seq<Record>): seq<u8>
  {
    if |rs| == 0 then [] else EncodeRecord(rs[0]) + Encode(rs[1..])
  }

  /** Splits a frame into records, failing on an unknown type byte or a record
      cut short. Whatever it accepts re-encodes to the same bytes. */
  function Decode(bs: seq<u8>): (r: Option<seq<Record>>)
    ensures r.Some? ==> AllWellFormed(r.value) && Encode(r.value) == bs
    decreases |bs|
  {
    if |bs| == 0 then Some([])
    else if |bs| < 2 then None
    else match TypeOf(bs[1])
      case None => None
      case Some(t) =>
        var n := DataSize(t);
        if |bs| < 2 + n then None
        else match Decode(bs[2 + n..])
          case None => None
          case Some(rest) =>
            var head := Record(bs[0], t, bs[2..2 + n]);
            assert EncodeRecord(head) == bs[..2 + n];
            assert Encode([head] + rest) == EncodeRecord(head) + Encode(rest) by {
              assert ([head] + rest)[1..] == rest;
            }
            assert bs == bs[..2 + n] + bs[2 + n..];
            Some([head] + rest)
  }

  /** Decoding an encoding of well-formed records gives the records back. */
  lemma {:induction false} DecodeEncode(rs: seq<Record>)
    requires AllWellFormed(rs)
    ensures Decode(Encode(rs)) == Some(rs)
  {
    if |rs| > 0 {
      var head := rs[0];
      var bs := Encode(rs);
      var n := DataSize(head.kind);
      assert WellFormed(head);
      CodeRoundTrip(head.kind);
      assert bs == [head.channel, Code(head.kind)] + head.data + Encode(rs[1..]);
      assert bs[1] == Code(head.kind);
      assert bs[2..2 + n] == head.data;
      assert bs[2 + n..] == Encode(rs[1..]);
      assert AllWellFormed(rs[1..]) by {
        forall i | 0 <= i < |rs[1..]|
          ensures WellFormed(rs[1..][i])
        {
          assert rs[1..][i] == rs[i + 1];
        }
      }
      DecodeEncode(rs[1..]);
      assert [head] + rs[1..] == rs;
    }
  }
}

=== FILE: env_payload.dfy ===
/** The uplink payloads of the default and environmental profiles (the two files
    carry the same code): a three-record Cayenne LPP frame, or a packed
    five-byte native struct. Encoders take the integer field values the
    firmware obtains from its float readings. */
module EnvPayload {
  import opened Bytes
  import opened Wrappers
  import opened Cayenne
  import Nvs

  /** LPP fields: humidity in 0.5 % steps (`uint8_t`), temperature in 0.1 °C
      (`int16_t`), battery voltage in 0.01 V (`int16_t`). */
  datatype LppFields = LppFields(humidity: u8, temperature: i16, battery: i16)

  /** Native fields: humidity and temperature in hundredths, battery in percent. */
  datatype NativeFields = NativeFields(humidity: u16, temperature: i16, battery: u8)

  /** One measurement, converted both ways. */
  datatype Sample = Sample(lpp: LppFields, native: NativeFields)

  /** The stored payload-format selector; the caller initialises it to 0, so a
      missing key reads as 0. */
  function FormatOf(store: Nvs.Store): u8
  {
    Nvs.GetU8(store, Nvs.PayloadFormat, 0)
  }

  function EncodeLpp(f: LppFields): (p: seq<u8>)
    ensures |p| == 11
  {
    [1, Code(RelativeHumidity), f.humidity,
     2, Code(Temperature), HighByte(Bits16(f.temperature)), LowByte(Bits16(f.temperature)),
     3, Code(AnalogInput), HighByte(Bits16(f.battery)), LowByte(Bits16(f.battery))]
  }

  /** `native_payload_t`: `uint16_t humidity; int16_t temperature; uint8_t battery`,
      packed, in the ESP32's little-endian order. */
  function EncodeNative(f: NativeFields): (p: seq<u8>)
    ensures |p| == 5
  {
    LittleEndian16(f.humidity) + LittleEndian16(Bits16(f.temperature)) + [f.battery]
  }

  function DecodeNative(p: seq<u8>): NativeFields
    requires |p| == 5
  {
    NativeFields(ReadLittleEndian16(p[0..2]), Signed16(ReadLittleEndian16(p[2..4])), p[4])
  }

  /** Format 1 selects LPP; every other value selects the native struct. */
  function Payload(format: u8, s: Sample): (p: seq<u8>)
    ensures |p| == if format == 1 then 11 else 5
  {
    if format == 1 then EncodeLpp(s.lpp) else EncodeNative(s.native)
  }

  lemma FormatSelectsEncoding(store: Nvs.Store, s: Sample)
    ensures Nvs.PayloadFormat in store && store[Nvs.PayloadFormat] == Nvs.U8(1)
            <==> Payload(FormatOf(store), s) == EncodeLpp(s.lpp)
    ensures Nvs.PayloadFormat !in store ==> Payload(FormatOf(store), s) == EncodeNative(s.native)
  {
  }

  /** The LPP frame is three well-formed records on channels 1, 2, 3 whose
      data lengths are the sizes the LPP table gives their types. */
  lemma LppRecords(f: LppFields)
    ensures Decode(EncodeLpp(f)) == Some([
      Record(1, RelativeHumidity, [f.humidity]),
      Record(2, Temperature, BigEndian16(Bits16(f.temperature))),
      Record(3, AnalogInput, BigEndian16(Bits16(f.battery)))])
  {
    var rs := [
      Record(1, RelativeHumidity, [f.humidity]),
      Record(2, Temperature, BigEndian16(Bits16(f.temperature))),
      Record(3, AnalogInput, BigEndian16(Bits16(f.battery)))];
    assert AllWellFormed(rs);
    assert Encode(rs[2..]) == EncodeRecord(rs[2]) by {
      assert rs[2..][1..] == [];
    }
    assert Encode(rs[1..]) == EncodeRecord(rs[1]) + EncodeRecord(rs[2]) by {
      assert rs[1..][1..] == rs[2..];
    }
    assert Encode(rs) == EncodeLpp(f);
    DecodeEncode(rs);
  }

  /** Reading bytes 5–6 and 9–10 back big-endian as `int16_t` recovers the
      temperature and battery values; byte 2 is the humidity. */
  lemma LppReadBack(f: LppFields)
    ensures var p := EncodeLpp(f);
      && p[2] == f.humidity
      && Signed16(Join16(p[5], p[6])) == f.temperature
      && Signed16(Join16(p[9], p[10])) == f.battery
  {
    SplitThenJoin16(Bits16(f.temperature));
    SplitThenJoin16(Bits16(f.battery));
    Signed16OfBits16(f.temperature);
    Signed16OfBits16(f.battery);
  }

  lemma NativeRoundTrip(f: NativeFields)
    ensures DecodeNative(EncodeNative(f)) == f
  {
    var p := EncodeNative(f);
    assert p[0..2] == LittleEndian16(f.humidity);
    assert p[2..4] == LittleEndian16(Bits16(f.temperature));
    LittleEndian16RoundTrip(f.humidity);
    LittleEndian16RoundTrip(Bits16(f.temperature));
    Signed16OfBits16(f.temperature);
  }
}

=== FILE: i2c.dfy ===
/** The I2C helpers of main/i2c.c. The driver's verdict for each
    `i2c_master_cmd_begin` is an input. */
module I2c {
  import opened Bytes
  import opened I2cBus

  /** `i2c_write`: address, register byte, then the data write, which is queued
      even when `len == 0`. */
  function Write(dev: u8, reg: u8, data: seq<u8>, ok: bool): (t: Transfer)
    requires |data| <= 0xFFFF
    ensures |t.links| == 1 && LinksReleased(t) && BytesRead(t.links) == 0
    ensures t.links[0].cmd.address == AddressByte(dev, WriteDir)
    ensures t.links[0].cmd.writes == [WriteByte(reg), WriteBuffer(data)]
    ensures t.ret == 0 <==> ok
  {
    var t := Transfer([Link(Command(AddressByte(dev, WriteDir), [WriteByte(reg), WriteBuffer(data)], 0, false), true)], 0, ReturnCode(ok));
    assert t.links[1..] == [];
    t
  }

  /** `i2c_read` as written: after a failed register-address transaction it
      returns −1 before `i2c_cmd_link_delete`. The 30 ms delay separates the
      two transactions. */
  function ReadAsWritten(dev: u8, reg: u8, len: u16, addrOk: bool, readOk: bool): (t: Transfer)
    ensures len == 0 ==> t.links == [] && t.ret == 0
    ensures len > 0 ==> |t.links| >= 1 && t.links[0].cmd == AddressCommand(dev, reg)
    ensures len > 0 && !addrOk ==> t.ret == -1 && BytesRead(t.links) == 0
    ensures len > 0 && addrOk ==> BytesRead(t.links) == len && LinksReleased(t)
    ensures len > 0 && addrOk ==> (t.ret == 0 <==> readOk)
  {
    if len == 0 then Transfer([], 0, 0)
    else if !addrOk then
      var t := Transfer([Link(AddressCommand(dev, reg), false)], 0, -1);
      assert t.links[1..] == [];
      t
    else
      var t := Transfer([Link(AddressCommand(dev, reg), true), Link(ReadCommand(dev, len as nat), true)], 30, ReturnCode(readOk));
      assert t.links[1..][1..] == [];
      assert BytesRead(t.links[1..]) == len as nat;
      t
  }

  /** The early return leaves the first command link allocated. */
  lemma ReadLeaksLink(dev: u8, reg: u8, len: u16, readOk: bool)
    requires len > 0
    ensures !LinksReleased(ReadAsWritten(dev, reg, len, false, readOk))
  {
    assert !ReadAsWritten(dev, reg, len, false, readOk).links[0].deleted;
  }

  /** `i2c_read` with the link deleted before the early return. */
  function Read(dev: u8, reg: u8, len: u16, addrOk: bool, readOk: bool): (t: Transfer)
    ensures LinksReleased(t)
    ensures len == 0 ==> t.links == [] && t.ret == 0
    ensures len > 0 ==> |t.links| >= 1 && t.links[0].cmd == AddressCommand(dev, reg)
    ensures len > 0 && !addrOk ==> t.ret == -1 && BytesRead(t.links) == 0
    ensures len > 0 && addrOk ==> BytesRead(t.links) == len && (t.ret == 0 <==> readOk)
  {
    if len > 0 && !addrOk then
      var t := Transfer([Link(AddressCommand(dev, reg), true)], 0, -1);
      assert t.links[1..] == [];
      t
    else ReadAsWritten(dev, reg, len, addrOk, readOk)
  }

  /** The correction only touches the failure path. */
  lemma ReadAgreesUnlessAddressFails(dev: u8, reg: u8, len: u16, addrOk: bool, readOk: bool)
    ensures (len == 0 || addrOk) <==> Read(dev, reg, len, addrOk, readOk) == ReadAsWritten(dev, reg, len, addrOk, readOk)
  {
    if len > 0 && !addrOk {
      ReadLeaksLink(dev, reg, len, readOk);
    }
  }
}

=== FILE: i2c_bus.dfy ===
/** I2C master command links, shared by the two copies of the I2C helpers
    (main/i2c.c and main/peripherals.c). A command link holds one
    start … stop transaction; it is executed by `i2c_master_cmd_begin` and must
    be released with `i2c_cmd_link_delete`. */
module I2cBus {
  import opened Bytes

  /** The R/W bit: I2C_MASTER_WRITE is 0 and I2C_MASTER_READ is 1. */
  datatype Direction = WriteDir | ReadDir

  function RwBit(d: Direction): u8
  {
    match d
    case WriteDir => 0
    case ReadDir => 1
  }

  /** `(dev_id << 1) | R/W` passed to a `uint8_t` parameter: the address byte of
      section 3.1.10 of the NXP UM10204 I2C-bus specification. */
  function AddressByte(dev: u8, d: Direction): u8
  {
    (dev * 2 + RwBit(d)) % 0x100
  }

  /** For a 7-bit address the upper seven bits carry the address and bit 0 the
      direction; an eighth address bit is shifted out. */
  lemma AddressByteLayout(dev: u8, d: Direction)
    ensures dev < 0x80 ==> AddressByte(dev, d) / 2 == dev
    ensures AddressByte(dev, d) % 2 == RwBit(d)
    ensures dev >= 0x80 ==> AddressByte(dev, d) / 2 == dev - 0x80
  {
  }

  /** A queued master write, always with ACK checking enabled. */
  datatype Write =
    | WriteByte(b: u8)          // i2c_master_write_byte
    | WriteBuffer(data: seq<u8>) // i2c_master_write

  /** One start … stop transaction: the address byte, the writes after it, then
      `acked` bytes read with ACK (`i2c_master_read`) and, when `nackLast`, one
      byte read with NACK (`i2c_master_read_byte`). */
  datatype Command = Command(address: u8, writes: seq<Write>, acked: nat, nackLast: bool)

  function CommandBytesRead(c: Command): nat
  {
    c.acked + if c.nackLast then 1 else 0
  }

  /** A command link as the helper used it: executed, then deleted or not. */
  datatype Link = Link(cmd: Command, deleted: bool)

  /** The outcome of a helper: its links in order, the delay between them and
      the return code. */
  datatype Transfer = Transfer(links: seq<Link>, delayMs: nat, ret: int)

  /** Every created command link is deleted again. */
  predicate LinksReleased(t: Transfer)
  {
    forall i :: 0 <= i < |t.links| ==> t.links[i].deleted
  }

  /** Bytes clocked in from the slave. */
  function BytesRead(links: seq<Link>): nat
  {
    if |links| == 0 then 0 else CommandBytesRead(links[0].cmd) + BytesRead(links[1..])
  }

  /** The register-address transaction both read helpers start with. */
  function AddressCommand(dev: u8, reg: u8): (c: Command)
    ensures c.address % 2 == 0 && CommandBytesRead(c) == 0
  {
    AddressByteLayout(dev, WriteDir);
    Command(AddressByte(dev, WriteDir), [WriteByte(reg)], 0, false)
  }

  /** The data transaction: `len − 1` bytes acknowledged and the last one not,
      as section 3.1.6 of UM10204 requires of a master receiver. */
  function ReadCommand(dev: u8, len: nat): (c: Command)
    requires len > 0
    ensures c.address % 2 == 1 && c.writes == []
    ensures CommandBytesRead(c) == len && c.nackLast
  {
    AddressByteLayout(dev, ReadDir);
    Command(AddressByte(dev, ReadDir), [], len - 1, true)
  }

  /** `ret == ESP_OK ? 0 : -1`. */
  function ReturnCode(ok: bool): (r: int)
    ensures r == 0 <==> ok
    ensures r == 0 || r == -1
  {
    if ok then 0 else -1
  }
}

=== FILE: lmic_hal.dfy ===
/** The timer and wake handling of the LMIC hardware abstraction in
    main/lmic_hal.c. The 64-bit hardware counter reading is part of the state;
    time passing while the radio task sleeps is an input of `Sleep`. */
module LmicHal {
  import opened Bytes
  import opened Wrappers

  const Two32: nat := 0x1_0000_0000

  /** `next_timer_alarm` when no alarm is pending: beyond every 32-bit time. */
  const Disarmed: u64 := 0x2_0000_0000

  /** Targets this far in the past still count as due. */
  const OverrunThreshold: u32 := 0x10000

  /** How far in the future a target may be and still count as due. */
  const Soon: u32 := 5

  datatype Hal = Hal(counter: u64, nextAlarm: u64)

  /** `hal_ticks`: the counter truncated to `u4_t`. */
  function Ticks(h: Hal): (t: u32)
    ensures h.counter < Two32 ==> t == h.counter
    ensures h.counter == t + Two32 * (h.counter / Two32)
  {
    h.counter % Two32
  }

  /** `set_next_timer_alarm`: shrink the counter to its low 32 bits when it has
      grown past them, then remember the target. */
  function SetNextTimerAlarm(h: Hal, time: u32): (r: Hal)
    ensures r.counter < Two32 && Ticks(r) == Ticks(h)
    ensures r.nextAlarm == time
    ensures h.counter < Two32 ==> r.counter == h.counter
  {
    var now32 := Ticks(h);
    Hal(if h.counter != now32 then now32 else h.counter, time)
  }

  /** `disarm_timer_alarm`. */
  function Disarm(h: Hal): (r: Hal)
    ensures r.counter == h.counter
    ensures r.nextAlarm >= Two32
    ensures r.nextAlarm == Disarmed
  {
    Hal(h.counter, Disarmed)
  }

  datatype Check = Check(due: bool, hal: Hal)

  /** `hal_checkTimer`: due when the target lies less than 5 ticks ahead or less
      than 0x10000 ticks behind, using plain unsigned comparison of the two
      32-bit values; otherwise the target becomes the next alarm. */
  function CheckTimer(h: Hal, time: u32): (c: Check)
    ensures c.due ==> c.hal == h
    ensures !c.due ==> c.hal == SetNextTimerAlarm(h, time)
    ensures time >= Ticks(h) ==> (c.due <==> time - Ticks(h) < Soon)
    ensures time < Ticks(h) ==> (c.due <==> Ticks(h) - time < OverrunThreshold)
  {
    var now32 := Ticks(h);
    if time >= now32 && time - now32 < Soon then Check(true, h)
    else if time < now32 && now32 - time < OverrunThreshold then Check(true, h)
    else Check(false, SetNextTimerAlarm(h, time))
  }

  /** The reference notion of "due" on a wrapping 32-bit clock: the target is at
      most 4 ticks ahead or less than 0x10000 behind, distance taken modulo 2^32. */
  predicate DueModular(now32: u32, time: u32)
  {
    var ahead := (time - now32) % Two32;
    ahead < Soon || ahead > Two32 - OverrunThreshold
  }

  /** The unsigned comparison agrees with the modular one as long as the target
      and the current tick are less than 2^31 apart without wrapping. */
  lemma CheckAgreesWhenClose(h: Hal, time: u32)
    requires -0x8000_0000 < time - Ticks(h) < 0x8000_0000
    ensures CheckTimer(h, time).due <==> DueModular(Ticks(h), time)
  {
  }

  /** Across the 32-bit wrap the two disagree: a target 0x20 ticks in the past
      modulo 2^32 is taken for one far in the future, and armed as an alarm. */
  lemma FarFutureAcrossWrap()
    ensures DueModular(0x10, 0xFFFF_FFF0)
    ensures !CheckTimer(Hal(0x10, Disarmed), 0xFFFF_FFF0).due
    ensures CheckTimer(Hal(0x10, Disarmed), 0xFFFF_FFF0).hal.nextAlarm == 0xFFFF_FFF0
  {
  }

  /** What woke the radio task in `hal_sleep`. */
  datatype Wake = WakeUser | WakeTimer | WakeDio0 | WakeDio1

  datatype Effect = ArmAlarm(at: u64) | RadioIrq(dio: nat)

  datatype Slept = Slept(effects: seq<Effect>, hal: Hal)

  /** The DIO line a wake reports to `radio_irq_handler`, if any. */
  function DioOf(w: Wake): Option<nat>
  {
    match w
    case WakeDio0 => Some(0)
    case WakeDio1 => Some(1)
    case _ => None
  }

  /** `hal_sleep`: arm the pending alarm, wait for a wake, dispatch a DIO wake
      to the radio driver and disarm. `later` is the counter on waking. */
  function Sleep(h: Hal, wake: Wake, later: u64): (s: Slept)
    ensures |s.effects| >= 1 && s.effects[0] == ArmAlarm(h.nextAlarm)
    ensures forall n: nat :: RadioIrq(n) in s.effects <==> DioOf(wake) == Some(n)
    ensures |s.effects| <= 2
    ensures s.hal == Hal(later, Disarmed)
  {
    var dispatch := match wake
      case WakeDio0 => [RadioIrq(0)]
      case WakeDio1 => [RadioIrq(1)]
      case _ => [];
    Slept([ArmAlarm(h.nextAlarm)] + dispatch, Disarm(Hal(later, h.nextAlarm)))
  }

  /** `hal_waitUntil`: the alarm armed by the sleep is the requested time. */
  function WaitUntil(h: Hal, time: u32, wake: Wake, later: u64): (s: Slept)
    ensures |s.effects| >= 1 && s.effects[0] == ArmAlarm(time)
    ensures s.hal.nextAlarm == Disarmed
  {
    Sleep(SetNextTimerAlarm(h, time), wake, later)
  }

  /** A target `hal_checkTimer` finds not yet due is the alarm the next sleep arms. */
  lemma CheckThenSleep(h: Hal, time: u32, wake: Wake, later: u64)
    requires !CheckTimer(h, time).due
    ensures Sleep(CheckTimer(h, time).hal, wake, later).effects[0] == ArmAlarm(time)
  {
  }

  /** A sleep consumes its alarm: sleeping again without a new target waits
      on no timer, only on the user or the radio. */
  lemma SleepConsumesAlarm(h: Hal, w1: Wake, l1: u64, w2: Wake, l2: u64)
    ensures Sleep(Sleep(h, w1, l1).hal, w2, l2).effects[0] == ArmAlarm(Disarmed)
  {
  }

  /** The GPIO calls of `hal_pin_rst`. */
  datatype PinEffect = SetLevel(pin: nat, level: u8) | SetOutput(pin: nat) | SetInput(pin: nat)

  /** `hal_pin_rst`: 0 and 1 drive the reset pin; any other value releases it
      to an input; nothing happens when the pin is unused (`None`). */
  function PinRst(rst: Option<nat>, val: u8): (e: seq<PinEffect>)
    ensures rst.None? <==> e == []
    ensures rst.Some? ==> |e| == 2 && e[0] == SetLevel(rst.value, val)
    ensures rst.Some? ==> (e[1] == SetOutput(rst.value) <==> val <= 1)
    ensures rst.Some? ==> (e[1] == SetInput(rst.value) <==> val > 1)
  {
    match rst
    case None => []
    case Some(pin) =>
      if val == 0 || val == 1 then [SetLevel(pin, val), SetOutput(pin)]
      else [SetLevel(pin, val), SetInput(pin)]
  }
}

=== FILE: node.dfy ===
/** The wake/sleep orchestration of main/main.c as a state machine. Each task
    body between two blocking points is one atomic step; FreeRTOS semaphores
    are booleans (binary: giving a given semaphore changes nothing); the LoRa
    join and the clock are inputs. Two choices select the code as written or
    as evidently intended: `order`, the order in which `app_main` waits for
    the join task and the BLE task (as written, the join first), and
    `product`, the width in which the send timeout is computed (as written,
    32-bit `int`). */
module Node {
  import opened Bytes
  import opened Wrappers
  import Nvs
  import Ble
  import SendTiming

  /** `esp_sleep_get_wakeup_cause()`: the RTC timer, the button on EXT0, or
      anything else (power-on, reset). */
  datatype WakeCause = WakeTimer | WakeExt0 | WakeOther

  datatype WaitOrder = JoinThenBle | BleThenJoin

  /** How `period * 1000000` is computed for the send timer: in `int` as
      written at main.c:98 and main.c:305, or in 64 bits as intended. */
  datatype Product = IntProduct | WideProduct

  /** The microseconds the timer is armed with for `seconds`: the intended
      value unless the 32-bit product overflows, which happens exactly above
      2147 s. */
  function TimeoutMicros(product: Product, seconds: u16): (us: u64)
    ensures us == SendTiming.Micros(seconds) <==> product == WideProduct || seconds <= 2147
    ensures product == IntProduct ==> us == SendTiming.MicrosAsWritten(seconds)
  {
    SendTiming.MicrosAsWrittenCorrectIff(seconds);
    match product
    case IntProduct => SendTiming.MicrosAsWritten(seconds)
    case WideProduct => SendTiming.Micros(seconds)
  }

  /** The join task: none, created but not yet past its credential check, or
      waiting for the network's answer. `join_task != 0` exactly when it is
      not `NoJoin`. */
  datatype JoinTask = NoJoin | JoinCreated | Joining

  /** Where `app_main` is: waiting on its first or second semaphore, or past
      both and going to deep sleep. */
  datatype Stage = WaitFirst | WaitSecond | Asleep

  datatype Node = Node(
    order: WaitOrder,
    product: Product,
    store: Nvs.Store,
    unsetPeriod: u16,    // content of the uninitialised `period` when the key is missing
    now: int,            // seconds of gettimeofday
    devAddr: u32,        // RTC memory: nonzero means a LoRaWAN session
    sendTime: int,       // RTC memory: when the last measurement was sent
    sendSem: bool,
    joinDoneSem: bool,
    bleDoneSem: bool,
    join: JoinTask,
    bleTasks: nat,       // live instances of ble_task_func
    connection: bool,    // the BLE task's local `connection`
    sendTask: bool,
    timer: Option<u64>,  // the armed one-shot send timer, in microseconds
    ble: Ble.State,
    sends: seq<bool>,    // the `has_ble` argument of every measure_and_send
    stage: Stage)

  /** `r` runs the same code variant as `n`. */
  predicate SameVariant(n: Node, r: Node)
  {
    r.order == n.order && r.product == n.product
  }

  /** The send period read from the store into an uninitialised variable. */
  function Period(n: Node): u16
  {
    Nvs.GetU16(n.store, Nvs.Period, n.unsetPeriod)
  }

  /** The seconds `arm_send_timer` and the sleep block compute. */
  function RemainingSeconds(n: Node): (s: u16)
    ensures s <= Period(n)
    ensures Period(n) >= 1 ==> s >= 1
  {
    SendTiming.Remaining(Period(n), n.now, n.sendTime)
  }

  /** `arm_send_timer`. `esp_timer_start_once` refuses to restart a running
      timer, so an armed timer keeps its deadline. */
  function ArmSendTimer(n: Node): (r: Node)
    ensures n.timer.None? ==> r.timer == Some(TimeoutMicros(n.product, RemainingSeconds(n)))
    ensures n.timer.Some? ==> r.timer == n.timer
    ensures r.(timer := n.timer) == n
  {
    if n.timer.None? then n.(timer := Some(TimeoutMicros(n.product, RemainingSeconds(n)))) else n
  }

  /** `measure_and_send(has_ble)`: one LoRa send, then the timestamp. */
  function MeasureAndSend(n: Node, hasBle: bool): (r: Node)
    ensures r.sends == n.sends + [hasBle] && r.sendTime == n.now
    ensures r.(sends := n.sends, sendTime := n.sendTime) == n
  {
    n.(sends := n.sends + [hasBle], sendTime := n.now)
  }

  /** `app_main` up to its first wait, after a wake for `cause`. Only
      `devAddr` and `sendTime` survive deep sleep in RTC memory (main.c:40-45);
      every BLE static starts afresh, under the handle tables the attribute
      tables were registered with. */
  function Boot(order: WaitOrder, product: Product, store: Nvs.Store, unsetPeriod: u16, now: int, devAddr: u32,
                sendTime: int, table: Ble.HandleTable, sensors: Ble.SensorHandles, cause: WakeCause): (n: Node)
    ensures n.order == order && n.product == product && n.devAddr == devAddr && n.store == store && n.now == now
    ensures n.ble.table == table && n.ble.sensors == sensors
    ensures !n.ble.hasConnection && n.ble.queue == [] && n.ble.batteryLevel == 0
    ensures !n.sendSem && !n.connection
    // a timer wake sends once, without BLE, and creates no task
    ensures cause == WakeTimer ==>
      && n.stage == Asleep && n.sends == [false] && n.sendTime == now
      && n.join == NoJoin && n.bleTasks == 0 && !n.sendTask && n.timer.None?
      && !n.joinDoneSem && !n.bleDoneSem
    // any other wake starts the send task, then a join or the timer, then BLE or not
    ensures cause != WakeTimer ==>
      && n.stage == WaitFirst && n.sends == [] && n.sendTask && n.sendTime == sendTime
      && (n.join == JoinCreated <==> devAddr == 0)
      && (n.join == NoJoin <==> devAddr != 0)
      && (n.joinDoneSem <==> devAddr != 0)
      && (n.timer.Some? <==> devAddr != 0)
      && (n.bleTasks == 1 <==> cause == WakeExt0)
      && (n.bleTasks == 0 <==> cause != WakeExt0)
      && (n.bleDoneSem <==> cause != WakeExt0)
  {
    var ble := Ble.Fresh(table, sensors);
    var n0 := Node(order, product, store, unsetPeriod, now, devAddr, sendTime, false, false, false, NoJoin, 0, false,
                   false, None, ble, [], WaitFirst);
    if cause == WakeTimer then
      MeasureAndSend(n0, false).(stage := Asleep)
    else
      var n1 := n0.(sendTask := true);
      var n2 := if devAddr != 0 then ArmSendTimer(n1.(joinDoneSem := true)) else n1.(join := JoinCreated);
      if cause == WakeExt0 then n2.(bleTasks := 1, ble := Ble.Init(ble)) else n2.(bleDoneSem := true)
  }

  /** True when the store holds the three credentials `join_task_func` checks. */
  predicate HasCredentials(store: Nvs.Store)
  {
    Nvs.HasBlob(store, Nvs.AppEui) && Nvs.HasBlob(store, Nvs.DevEui) && Nvs.HasBlob(store, Nvs.DevKey)
  }

  /** `join_task_func` up to the wait for the join result: the send timer
      stops and the session is forgotten; without credentials the task ends
      here. */
  function JoinStart(n: Node): (r: Node)
    requires n.join == JoinCreated
    ensures r.devAddr == 0 && r.sendTime == 0 && r.timer.None?
    ensures HasCredentials(n.store) ==> r.join == Joining && r.joinDoneSem == n.joinDoneSem
    ensures !HasCredentials(n.store) ==> r.join == NoJoin && r.joinDoneSem
    ensures r.sendSem == n.sendSem && r.bleTasks == n.bleTasks && r.stage == n.stage
    ensures SameVariant(n, r)
  {
    var n1 := n.(timer := None, sendTime := 0, devAddr := 0);
    if HasCredentials(n.store) then n1.(join := Joining)
    else n1.(join := NoJoin, joinDoneSem := true)
  }

  /** The rest of `join_task_func`: on success take the session and request a
      send; in every case clear `join_task` and signal completion. */
  function JoinEnd(n: Node, joined: bool, addr: u32): (r: Node)
    requires n.join == Joining
    ensures r.join == NoJoin && r.joinDoneSem
    ensures joined ==> r.devAddr == addr && r.sendSem
    ensures !joined ==> r.devAddr == n.devAddr && r.sendSem == n.sendSem
    ensures r.bleTasks == n.bleTasks && r.stage == n.stage && r.timer == n.timer
    ensures SameVariant(n, r)
  {
    var n1 := if joined then n.(devAddr := addr, sendSem := true) else n;
    n1.(join := NoJoin, joinDoneSem := true)
  }

  /** One iteration of the `ble_task_func` loop: the oldest queued BLE event
      is handled; with the queue empty the receive times out, which ends the
      task unless a client is connected. */
  function BleReceive(n: Node): (r: Node)
    requires n.bleTasks > 0
    ensures n.ble.queue == [] && !n.connection ==>
      r.bleTasks + 1 == n.bleTasks && r.bleDoneSem && !Ble.HasContext(r.ble)
    ensures n.ble.queue == [] && n.connection ==> r == n
    ensures n.ble.queue != [] ==> r.bleTasks == n.bleTasks && r.bleDoneSem == n.bleDoneSem && r.ble.queue == n.ble.queue[1..]
    ensures n.ble.queue != [] && n.ble.queue[0] == Ble.Connect ==> r.connection
    ensures n.ble.queue != [] && n.ble.queue[0] == Ble.Disconnect ==> !r.connection
    ensures n.ble.queue != [] && n.ble.queue[0] == Ble.PeriodUpdate ==>
      (r.sendSem <==> n.sendSem || n.devAddr != 0) && (n.devAddr != 0 ==> r.timer.None?)
    ensures n.ble.queue != [] && n.ble.queue[0] == Ble.LoraUpdated ==>
      r.join == JoinCreated && !r.joinDoneSem
    ensures n.ble.queue != [] && n.ble.queue[0] != Ble.LoraUpdated ==> r.join == n.join && r.joinDoneSem == n.joinDoneSem
    ensures r.stage == n.stage && r.devAddr == n.devAddr
    ensures SameVariant(n, r)
  {
    match Ble.Receive(n.ble.queue)
    case None =>
      if n.connection then n
      else n.(ble := Ble.Deinit(n.ble), bleDoneSem := true, bleTasks := n.bleTasks - 1)
    case Some((e, rest)) =>
      var n1 := n.(ble := n.ble.(queue := rest));
      match e
      case Connect => n1.(connection := true)
      case Disconnect => n1.(connection := false)
      case PeriodUpdate => if n.devAddr != 0 then n1.(timer := None, sendSem := true) else n1
      case LoraUpdated => n1.(join := JoinCreated, joinDoneSem := false)
  }

  /** A GATT server callback while the BLE stack is up. */
  function Gatts(n: Node, ev: Ble.GattsEvent): (r: Node)
    ensures r.store == Ble.HandleGatts(n.ble, n.store, ev).store
    ensures r.ble == Ble.HandleGatts(n.ble, n.store, ev).state
    ensures r.(store := n.store, ble := n.ble) == n
  {
    var h := Ble.HandleGatts(n.ble, n.store, ev);
    n.(ble := h.state, store := h.store)
  }

  /** A GAP callback while the BLE stack is up. */
  function Gap(n: Node, ev: Ble.GapEvent): (r: Node)
    ensures r.(ble := n.ble) == n
  {
    n.(ble := Ble.HandleGap(n.ble, ev).0)
  }

  /** One iteration of `send_task_func` after taking `send_sem`. */
  function SendRun(n: Node): (r: Node)
    requires n.sendTask && n.sendSem
    ensures !r.sendSem && r.sends == n.sends + [true] && r.sendTime == n.now
    ensures n.timer.None? ==> r.timer == Some(TimeoutMicros(n.product, Period(n)))
    ensures r.bleTasks == n.bleTasks && r.join == n.join && r.stage == n.stage
    ensures SameVariant(n, r)
  {
    SendTiming.RemainingAfterStamp(Period(n), n.now);
    ArmSendTimer(MeasureAndSend(n.(sendSem := false), true))
  }

  /** `send_timer_callback`. */
  function TimerFire(n: Node): (r: Node)
    requires n.timer.Some?
    ensures r.sendSem && r.timer.None?
    ensures r.(sendSem := n.sendSem, timer := n.timer) == n
  {
    n.(timer := None, sendSem := true)
  }

  /** `button_isr_handler`: a BLE task is started only by taking
      `ble_task_done_sem`. */
  function Button(n: Node): (r: Node)
    ensures n.bleDoneSem ==> !r.bleDoneSem && r.bleTasks == n.bleTasks + 1 && !r.connection && r.ble.queue == []
    ensures !n.bleDoneSem ==> r == n
    ensures SameVariant(n, r)
  {
    if n.bleDoneSem then n.(bleDoneSem := false, bleTasks := n.bleTasks + 1, connection := false, ble := Ble.Init(n.ble))
    else n
  }

  /** The semaphore `app_main` waits on at its current stage. */
  function Awaited(n: Node): bool
  {
    match (n.order, n.stage)
    case (JoinThenBle, WaitFirst) => n.joinDoneSem
    case (JoinThenBle, WaitSecond) => n.bleDoneSem
    case (BleThenJoin, WaitFirst) => n.bleDoneSem
    case (BleThenJoin, WaitSecond) => n.joinDoneSem
    case (_, Asleep) => false
  }

  /** `app_main` takes the semaphore it waits on; after the second it deletes
      the send task and goes to sleep. */
  function MainTake(n: Node): (r: Node)
    requires n.stage != Asleep && Awaited(n)
    ensures n.stage == WaitFirst ==> r.stage == WaitSecond && r.sendTask == n.sendTask
    ensures n.stage == WaitSecond ==> r.stage == Asleep && !r.sendTask
    ensures (n.order == JoinThenBle) == (n.stage == WaitFirst) ==> !r.joinDoneSem && r.bleDoneSem == n.bleDoneSem
    ensures (n.order == BleThenJoin) == (n.stage == WaitFirst) ==> !r.bleDoneSem && r.joinDoneSem == n.joinDoneSem
    ensures r.join == n.join && r.bleTasks == n.bleTasks && r.devAddr == n.devAddr
    ensures SameVariant(n, r)
  {
    var takesJoin := (n.order == JoinThenBle) == (n.stage == WaitFirst);
    var n1 := if takesJoin then n.(joinDoneSem := false) else n.(bleDoneSem := false);
    if n.stage == WaitFirst then n1.(stage := WaitSecond) else n1.(stage := Asleep, sendTask := false)
  }

  /** The wake sources armed before `esp_deep_sleep_start`. */
  datatype SleepPlan = SleepPlan(ext0: bool, timerUs: Option<u64>)

  /** The sleep block of `app_main`: the button always; the timer only with a
      session, for the rest of the period. That timer lasts the rest of the
      period exactly when its product does not overflow. */
  function PlanSleep(n: Node): (p: SleepPlan)
    ensures p.ext0
    ensures p.timerUs.Some? <==> n.devAddr != 0
    ensures p.timerUs.Some? ==>
      (p.timerUs.value == SendTiming.Micros(RemainingSeconds(n)) <==> n.product == WideProduct || RemainingSeconds(n) <= 2147)
    ensures p.timerUs.Some? && (n.product == WideProduct || RemainingSeconds(n) <= 2147) ==>
      p.timerUs.value / 1_000_000 == RemainingSeconds(n)
  {
    SleepPlan(true, if n.devAddr != 0 then Some(TimeoutMicros(n.product, RemainingSeconds(n))) else None)
  }

  datatype Action =
    | JoinStartAct
    | JoinEndAct(joined: bool, addr: u32)
    | BleReceiveAct
    | GattsAct(gatts: Ble.GattsEvent)
    | GapAct(gap: Ble.GapEvent)
    | SendRunAct
    | TimerFireAct
    | ButtonAct
    | MainTakeAct
    | TickAct(seconds: nat)

  /** Whether an action can happen: its task exists and is not blocked. GATT
      callbacks come while the stack is up, and reads and writes only from a
      connected client. Nothing runs once `app_main` has committed to deep
      sleep. */
  predicate Enabled(n: Node, a: Action)
  {
    n.stage != Asleep &&
    match a
    case JoinStartAct => n.join == JoinCreated
    case JoinEndAct(_, _) => n.join == Joining
    case BleReceiveAct => n.bleTasks > 0
    case GattsAct(ev) => n.bleTasks > 0 && (ev.ReadEvt? || ev.WriteEvt? ==> n.ble.hasConnection)
    case GapAct(_) => n.bleTasks > 0
    case SendRunAct => n.sendTask && n.sendSem
    case TimerFireAct => n.timer.Some?
    case ButtonAct => true
    case MainTakeAct => Awaited(n)
    case TickAct(_) => true
  }

  /** One action, if it is enabled; no action changes which code variant runs. */
  function Step(n: Node, a: Action): (r: Option<Node>)
    ensures r.Some? <==> Enabled(n, a)
    ensures r.Some? ==> SameVariant(n, r.value)
  {
    if !Enabled(n, a) then None
    else Some(match a
      case JoinStartAct => JoinStart(n)
      case JoinEndAct(joined, addr) => JoinEnd(n, joined, addr)
      case BleReceiveAct => BleReceive(n)
      case GattsAct(ev) => Gatts(n, ev)
      case GapAct(ev) => Gap(n, ev)
      case SendRunAct => SendRun(n)
      case TimerFireAct => TimerFire(n)
      case ButtonAct => Button(n)
      case MainTakeAct => MainTake(n)
      case TickAct(k) => n.(now := n.now + k))
  }

  /** The node after a run of actions, if every one was enabled in turn. */
  function Run(n: Node, acts: seq<Action>): Option<Node>
    decreases acts
  {
    if acts == [] then Some(n)
    else match Step(n, acts[0])
      case None => None
      case Some(n1) => Run(n1, acts[1..])
  }
}

=== FILE: node_proofs.dfy ===
/** Invariants of the main.c state machine, the binary-semaphore behaviour of
    the send request, and the consequence of the order in which `app_main`
    waits for its two tasks. */
module NodeProofs {
  import opened Bytes
  import opened Wrappers
  import Nvs
  import Ble
  import SendTiming
  import opened Node

  /** `app_main` has already taken `ble_task_done_sem`. */
  predicate BleTaken(n: Node)
  {
    match (n.order, n.stage)
    case (JoinThenBle, Asleep) => true
    case (BleThenJoin, WaitSecond) => true
    case (BleThenJoin, Asleep) => true
    case _ => false
  }

  function Count(b: bool): nat
  {
    if b then 1 else 0
  }

  /** The facts every reachable node keeps:
      - one BLE token circulates between a running BLE task, the semaphore and
        `app_main`, so at most one BLE task exists;
      - a signalled `join_task_done_sem` means no join task is alive;
      - the send task lives exactly until `app_main` goes to sleep;
      - waiting for BLE first, no join task is alive at sleep. */
  predicate Inv(n: Node)
  {
    && n.bleTasks + Count(n.bleDoneSem) + Count(BleTaken(n)) == 1
    && (n.joinDoneSem ==> n.join == NoJoin)
    && (n.sendTask <==> n.stage != Asleep)
    && (n.order == BleThenJoin && n.stage == Asleep ==> n.join == NoJoin)
  }

  /** Everything a wake starts from: the code variant, the store, the RTC
      memory, the registered BLE handles and the cause. */
  datatype Wakeup = Wakeup(order: WaitOrder, product: Product, store: Nvs.Store, unsetPeriod: u16, now: int,
                           devAddr: u32, sendTime: int, table: Ble.HandleTable, sensors: Ble.SensorHandles,
                           cause: WakeCause)

  function Start(w: Wakeup): Node
  {
    Boot(w.order, w.product, w.store, w.unsetPeriod, w.now, w.devAddr, w.sendTime, w.table, w.sensors, w.cause)
  }

  lemma BootEstablishes(w: Wakeup)
    ensures Inv(Start(w))
  {
  }

  /** The actions that move the tasks and semaphores keep the invariant. */
  lemma TaskStepPreserves(n: Node, a: Action)
    requires Inv(n) && Step(n, a).Some?
    requires a.BleReceiveAct? || a.MainTakeAct? || a.JoinStartAct? || a.JoinEndAct?
    ensures Inv(Step(n, a).value)
  {
    match a
    case BleReceiveAct =>
      assert n.bleTasks == 1 && !n.bleDoneSem && !BleTaken(n);
    case MainTakeAct =>
    case JoinStartAct =>
    case JoinEndAct(_, _) =>
  }

  /** The remaining actions touch neither the tasks nor the stage. */
  lemma EventStepPreserves(n: Node, a: Action)
    requires Inv(n) && Step(n, a).Some?
    requires !(a.BleReceiveAct? || a.MainTakeAct? || a.JoinStartAct? || a.JoinEndAct?)
    ensures Inv(Step(n, a).value)
  {
    match a
    case ButtonAct =>
    case GattsAct(_) =>
    case GapAct(_) =>
    case SendRunAct =>
    case TimerFireAct =>
    case TickAct(_) =>
  }

  lemma StepPreserves(n: Node, a: Action)
    requires Inv(n) && Step(n, a).Some?
    ensures Inv(Step(n, a).value)
  {
    if a.BleReceiveAct? || a.MainTakeAct? || a.JoinStartAct? || a.JoinEndAct? {
      TaskStepPreserves(n, a);
    } else {
      EventStepPreserves(n, a);
    }
  }

  lemma {:induction false} RunPreserves(n: Node, acts: seq<Action>)
    requires Inv(n) && Run(n, acts).Some?
    ensures Inv(Run(n, acts).value)
    decreases acts
  {
    if acts != [] {
      StepPreserves(n, acts[0]);
      RunPreserves(Step(n, acts[0]).value, acts[1..]);
    }
  }

  lemma {:induction false} RunKeepsVariant(n: Node, acts: seq<Action>)
    requires Run(n, acts).Some?
    ensures SameVariant(n, Run(n, acts).value)
    decreases acts
  {
    if acts != [] {
      RunKeepsVariant(Step(n, acts[0]).value, acts[1..]);
    }
  }

  lemma ReachableInv(w: Wakeup, acts: seq<Action>)
    requires Run(Start(w), acts).Some?
    ensures Inv(Run(Start(w), acts).value)
    ensures Run(Start(w), acts).value.order == w.order && Run(Start(w), acts).value.product == w.product
  {
    BootEstablishes(w);
    RunPreserves(Start(w), acts);
    RunKeepsVariant(Start(w), acts);
  }

  /** The button can never start a second BLE task. */
  lemma AtMostOneBleTask(w: Wakeup, acts: seq<Action>)
    requires Run(Start(w), acts).Some?
    ensures var n := Run(Start(w), acts).value;
      && n.bleTasks <= 1
      && (n.bleTasks == 1 ==> !n.bleDoneSem && Step(n, ButtonAct) == Some(n))
  {
    ReachableInv(w, acts);
  }

  /** When `app_main` waits for the BLE task first, deep sleep never cuts off a
      join task or a BLE task, and the send task is gone. */
  lemma CorrectedOrderSleepsIdle(w: Wakeup, acts: seq<Action>)
    requires w.order == BleThenJoin && Run(Start(w), acts).Some?
    ensures var n := Run(Start(w), acts).value;
      n.stage == Asleep ==> n.join == NoJoin && n.bleTasks == 0 && !n.sendTask
  {
    ReachableInv(w, acts);
  }

  /** `send_sem` is binary: a timer expiry while a send is already requested
      still yields a single send. */
  lemma SendRequestsCoalesce(n: Node)
    requires n.sendSem && n.sendTask && n.timer.Some? && n.stage != Asleep
    ensures Step(n, TimerFireAct) == Some(TimerFire(n)) && TimerFire(n).sendSem
    ensures var m := SendRun(TimerFire(n));
      |m.sends| == |n.sends| + 1 && Step(m, SendRunAct).None?
  {
  }

  /** A store with the three credentials `join_task_func` looks for. */
  function Provisioned(): (s: Nvs.Store)
    ensures HasCredentials(s)
  {
    map[Nvs.AppEui := Nvs.Blob(Zeros(8)), Nvs.DevEui := Nvs.Blob(Zeros(8)), Nvs.DevKey := Nvs.Blob(Zeros(16))]
  }

  /** Distinct handles 1..7 for the LoRa characteristics and 8..11 for the sensor ones. */
  function Table(): Ble.HandleTable
  {
    Ble.HandleTable(1, 2, 3, 4, 5, 6, 7)
  }

  function Sensors(): Ble.SensorHandles
  {
    Ble.SensorHandles(8, 9, 10, 11)
  }

  /** A button wake of a node that has a session: `app_main` takes the
      pre-given join semaphore; a client connects and writes the join EUI; the
      BLE task takes the connection and restarts the join; the new join task
      drops the session; the client disconnects and the BLE task, seeing
      nothing more, ends. */
  function RejoinDuringBle(): seq<Action>
  {
    ConnectAndWrite() + DropAndLeave()
  }

  function ConnectAndWrite(): seq<Action>
  {
    [MainTakeAct, GattsAct(Ble.ConnectEvt(1)), GattsAct(Ble.WriteEvt(2, Zeros(8), false, false)),
     BleReceiveAct, BleReceiveAct]
  }

  function DropAndLeave(): seq<Action>
  {
    [JoinStartAct, GattsAct(Ble.DisconnectEvt), BleReceiveAct, BleReceiveAct, MainTakeAct]
  }

  /** The BLE task of a join-first wake is running and `app_main` waits for it. */
  predicate WaitingOnBle(n: Node)
  {
    n.order == JoinThenBle && n.stage == WaitSecond && n.bleTasks == 1 && n.ble.table == Table()
  }

  /** The steps of `RejoinDuringBle`, each from any node with the facts it
      needs to one with the facts the next step needs. */
  function TakeJoinSem(n: Node): (r: Node)
    requires n.order == JoinThenBle && n.stage == WaitFirst && n.joinDoneSem && n.bleTasks == 1
    requires n.ble.table == Table() && n.ble.queue == [] && !n.ble.hasConnection && !n.connection
    requires n.join == NoJoin && HasCredentials(n.store)
    ensures Step(n, MainTakeAct) == Some(r)
    ensures WaitingOnBle(r) && r.ble.queue == [] && !r.ble.hasConnection && !r.connection
    ensures r.join == NoJoin && HasCredentials(r.store)
  {
    MainTake(n)
  }

  function ClientConnects(n: Node): (r: Node)
    requires WaitingOnBle(n) && n.ble.queue == [] && !n.ble.hasConnection && !n.connection
    requires n.join == NoJoin && HasCredentials(n.store)
    ensures Step(n, GattsAct(Ble.ConnectEvt(1))) == Some(r)
    ensures WaitingOnBle(r) && r.ble.queue == [Ble.Connect] && r.ble.hasConnection && !r.connection
    ensures r.join == NoJoin && HasCredentials(r.store)
  {
    Gatts(n, Ble.ConnectEvt(1))
  }

  function ClientWritesJoinEui(n: Node): (r: Node)
    requires WaitingOnBle(n) && n.ble.queue == [Ble.Connect] && n.ble.hasConnection && !n.connection
    requires n.join == NoJoin && HasCredentials(n.store)
    ensures Step(n, GattsAct(Ble.WriteEvt(2, Zeros(8), false, false))) == Some(r)
    ensures WaitingOnBle(r) && r.ble.queue == [Ble.Connect, Ble.LoraUpdated] && r.ble.hasConnection && !r.connection
    ensures r.join == NoJoin && HasCredentials(r.store)
  {
    assert Ble.Resolve(n.ble.table, 2) == Some(Ble.AttrJoinEui);
    Gatts(n, Ble.WriteEvt(2, Zeros(8), false, false))
  }

  function TaskSeesConnect(n: Node): (r: Node)
    requires WaitingOnBle(n) && n.ble.queue == [Ble.Connect, Ble.LoraUpdated] && n.ble.hasConnection
    requires n.join == NoJoin && HasCredentials(n.store)
    ensures Step(n, BleReceiveAct) == Some(r)
    ensures WaitingOnBle(r) && r.ble.queue == [Ble.LoraUpdated] && r.ble.hasConnection && r.connection
    ensures r.join == NoJoin && HasCredentials(r.store)
  {
    BleReceive(n)
  }

  function TaskRestartsJoin(n: Node): (r: Node)
    requires WaitingOnBle(n) && n.ble.queue == [Ble.LoraUpdated] && n.ble.hasConnection && n.connection
    requires n.join == NoJoin && HasCredentials(n.store)
    ensures Step(n, BleReceiveAct) == Some(r)
    ensures WaitingOnBle(r) && r.ble.queue == [] && r.ble.hasConnection && r.connection
    ensures r.join == JoinCreated && HasCredentials(r.store)
  {
    BleReceive(n)
  }

  function JoinDropsSession(n: Node): (r: Node)
    requires WaitingOnBle(n) && n.ble.queue == [] && n.ble.hasConnection && n.connection
    requires n.join == JoinCreated && HasCredentials(n.store)
    ensures Step(n, JoinStartAct) == Some(r)
    ensures WaitingOnBle(r) && r.ble.queue == [] && r.ble.hasConnection && r.connection
    ensures r.join == Joining && r.devAddr == 0
  {
    JoinStart(n)
  }

  function ClientDisconnects(n: Node): (r: Node)
    requires WaitingOnBle(n) && n.ble.queue == [] && n.ble.hasConnection && n.connection
    requires n.join == Joining && n.devAddr == 0
    ensures Step(n, GattsAct(Ble.DisconnectEvt)) == Some(r)
    ensures WaitingOnBle(r) && r.ble.queue == [Ble.Disconnect] && r.connection
    ensures r.join == Joining && r.devAddr == 0
  {
    Gatts(n, Ble.DisconnectEvt)
  }

  function TaskSeesDisconnect(n: Node): (r: Node)
    requires WaitingOnBle(n) && n.ble.queue == [Ble.Disconnect]
    requires n.join == Joining && n.devAddr == 0
    ensures Step(n, BleReceiveAct) == Some(r)
    ensures WaitingOnBle(r) && r.ble.queue == [] && !r.connection
    ensures r.join == Joining && r.devAddr == 0
  {
    BleReceive(n)
  }

  function TaskTimesOut(n: Node): (r: Node)
    requires WaitingOnBle(n) && n.ble.queue == [] && !n.connection
    requires n.join == Joining && n.devAddr == 0
    ensures Step(n, BleReceiveAct) == Some(r)
    ensures r.order == JoinThenBle && r.stage == WaitSecond && r.bleDoneSem
    ensures r.join == Joining && r.devAddr == 0
  {
    BleReceive(n)
  }

  function TakeBleSem(n: Node): (r: Node)
    requires n.order == JoinThenBle && n.stage == WaitSecond && n.bleDoneSem
    requires n.join == Joining && n.devAddr == 0
    ensures Step(n, MainTakeAct) == Some(r)
    ensures r.stage == Asleep && r.join == Joining && r.devAddr == 0
  {
    MainTake(n)
  }

  /** A run is the composition of its steps. */
  lemma {:induction false} RunComposes(n: Node, a: Action, rest: seq<Action>, m: Node)
    requires Step(n, a) == Some(m)
    ensures Run(n, [a] + rest) == Run(m, rest)
  {
    assert ([a] + rest)[0] == a && ([a] + rest)[1..] == rest;
  }

  /** Applying two runs of actions in turn is running their concatenation. */
  lemma {:induction false} RunConcat(n: Node, a: seq<Action>, b: seq<Action>)
    requires Run(n, a).Some?
    ensures Run(n, a + b) == Run(Run(n, a).value, b)
    decreases a
  {
    if a != [] {
      assert (a + b)[0] == a[0] && (a + b)[1..] == a[1..] + b;
      RunConcat(Step(n, a[0]).value, a[1..], b);
    } else {
      assert a + b == b;
    }
  }

  /** The first half of `RejoinDuringBle`: the client connects and writes,
      and the BLE task restarts the join. */
  lemma {:induction false} RejoinFirstHalf(n0: Node)
    requires n0.order == JoinThenBle && n0.stage == WaitFirst && n0.joinDoneSem && n0.bleTasks == 1
    requires n0.ble.table == Table() && n0.ble.queue == [] && !n0.ble.hasConnection && !n0.connection
    requires n0.join == NoJoin && HasCredentials(n0.store)
    ensures var r := Run(n0, ConnectAndWrite());
      && r.Some? && WaitingOnBle(r.value) && r.value.ble.queue == [] && r.value.ble.hasConnection
      && r.value.connection && r.value.join == JoinCreated && HasCredentials(r.value.store)
  {
    var n1 := TakeJoinSem(n0);
    var n2 := ClientConnects(n1);
    var n3 := ClientWritesJoinEui(n2);
    var n4 := TaskSeesConnect(n3);
    var n5 := TaskRestartsJoin(n4);
    var write := GattsAct(Ble.WriteEvt(2, Zeros(8), false, false));
    RunComposes(n4, BleReceiveAct, [], n5);
    RunComposes(n3, BleReceiveAct, [BleReceiveAct], n4);
    RunComposes(n2, write, [BleReceiveAct, BleReceiveAct], n3);
    RunComposes(n1, GattsAct(Ble.ConnectEvt(1)), [write, BleReceiveAct, BleReceiveAct], n2);
    RunComposes(n0, MainTakeAct, [GattsAct(Ble.ConnectEvt(1)), write, BleReceiveAct, BleReceiveAct], n1);
  }

  /** The second half: the join drops the session, the client leaves and the
      BLE task ends, and `app_main` goes to sleep. */
  lemma {:induction false} RejoinSecondHalf(n5: Node)
    requires WaitingOnBle(n5) && n5.ble.queue == [] && n5.ble.hasConnection && n5.connection
    requires n5.join == JoinCreated && HasCredentials(n5.store)
    ensures var r := Run(n5, DropAndLeave());
      && r.Some? && r.value.stage == Asleep && r.value.join == Joining && r.value.devAddr == 0
  {
    var n6 := JoinDropsSession(n5);
    var n7 := ClientDisconnects(n6);
    var n8 := TaskSeesDisconnect(n7);
    var n9 := TaskTimesOut(n8);
    var n10 := TakeBleSem(n9);
    var disconnect := GattsAct(Ble.DisconnectEvt);
    RunComposes(n9, MainTakeAct, [], n10);
    RunComposes(n8, BleReceiveAct, [MainTakeAct], n9);
    RunComposes(n7, BleReceiveAct, [BleReceiveAct, MainTakeAct], n8);
    RunComposes(n6, disconnect, [BleReceiveAct, BleReceiveAct, MainTakeAct], n7);
    RunComposes(n5, JoinStartAct, [disconnect, BleReceiveAct, BleReceiveAct, MainTakeAct], n6);
  }

  /** As written (join first), that run is enabled step by step and ends in
      deep sleep with the join still in progress and no session, so no timer
      wake is armed: the node stops reporting until the button is pressed
      again. */
  lemma AsWrittenSleepsDuringJoin()
    ensures var n0 := Boot(JoinThenBle, IntProduct, Provisioned(), 60, 1000, 42, 990, Table(), Sensors(), WakeExt0);
      && Run(n0, RejoinDuringBle()).Some?
      && var n := Run(n0, RejoinDuringBle()).value;
      && n.stage == Asleep && n.join == Joining && n.devAddr == 0
      && PlanSleep(n).timerUs.None?
  {
    var n0 := Boot(JoinThenBle, IntProduct, Provisioned(), 60, 1000, 42, 990, Table(), Sensors(), WakeExt0);
    RejoinFirstHalf(n0);
    RejoinSecondHalf(Run(n0, ConnectAndWrite()).value);
    RunConcat(n0, ConnectAndWrite(), DropAndLeave());
  }

  /** As written, a node with a session and an hour left in its period arms
      its wake timer about 584 000 years ahead; with the 64-bit product it
      wakes after exactly that hour. */
  lemma HourLeftSleeps(n: Node)
    requires n.devAddr != 0 && RemainingSeconds(n) == 3600
    ensures n.product == IntProduct ==> PlanSleep(n).timerUs == Some(SendTiming.Two64 - 694_967_296)
    ensures n.product == WideProduct ==> PlanSleep(n).timerUs == Some(3_600_000_000)
  {
    SendTiming.HourPeriodOverflows();
  }
}

=== FILE: nvs.dfy ===
/** The non-volatile key/value store ("lora" namespace) as a map from key to typed value. */
module Nvs {
  import opened Bytes

  /** Keys of the store. `AppEui`, `DevEui` and `DevKey` are the names main.c and
      lora.c use; the `Lora…` keys are the different names ble.c writes, kept
      apart because nothing in the shown headers says they coincide. */
  datatype Key =
    | Period | PayloadFormat | Confirmed | ProfileKey
    | AppEui | DevEui | DevKey
    | LoraJoinEui | LoraDevEui | LoraAppKey | LoraNwkKey

  datatype Value = U8(b: u8) | U16(w: u16) | Blob(bytes: seq<u8>)

  type Store = map<Key, Value>

  /** `nvs_get_u8(storage, key, &out)` with `out` initialised to `default`: a missing
      key (or one holding another type) leaves the variable untouched. */
  function GetU8(s: Store, k: Key, default: u8): (r: u8)
    ensures k in s && s[k].U8? ==> r == s[k].b
    ensures !(k in s && s[k].U8?) ==> r == default
  {
    if k in s && s[k].U8? then s[k].b else default
  }

  /** `nvs_get_u16` into a variable whose prior content is `prior` (an
      uninitialised stack variable when the caller did not set one). */
  function GetU16(s: Store, k: Key, prior: u16): (r: u16)
    ensures k in s && s[k].U16? ==> r == s[k].w
    ensures !(k in s && s[k].U16?) ==> r == prior
  {
    if k in s && s[k].U16? then s[k].w else prior
  }

  /** `nvs_set_u8` then `nvs_get_u8` on the same key reads the value set,
      whatever the key held before and whatever the caller's initial value. */
  lemma U8SetThenGet(s: Store, k: Key, v: u8, default: u8)
    ensures GetU8(s[k := U8(v)], k, default) == v
  {
  }

  /** `nvs_set_u16` then `nvs_get_u16` on the same key reads the value set. */
  lemma U16SetThenGet(s: Store, k: Key, w: u16, prior: u16)
    ensures GetU16(s[k := U16(w)], k, prior) == w
  {
  }

  /** Setting one key changes no read of another key. */
  lemma GetOtherKey(s: Store, k: Key, v: Value, other: Key, default: u8, prior: u16)
    requires other != k
    ensures GetU8(s[k := v], other, default) == GetU8(s, other, default)
    ensures GetU16(s[k := v], other, prior) == GetU16(s, other, prior)
    ensures HasBlob(s[k := v], other) == HasBlob(s, other)
  {
  }

  /** A key holding another type reads as missing: the caller's variable keeps
      its content. */
  lemma GetWrongType(s: Store, k: Key, default: u8, prior: u16)
    ensures k in s && !s[k].U8? ==> GetU8(s, k, default) == default
    ensures k in s && !s[k].U16? ==> GetU16(s, k, prior) == prior
    ensures k !in s ==> GetU8(s, k, default) == default && GetU16(s, k, prior) == prior
  {
  }

  /** `nvs_get_blob(storage, key, NULL, &len) == ESP_OK`: the key holds a blob. */
  predicate HasBlob(s: Store, k: Key)
  {
    k in s && s[k].Blob?
  }
}

=== FILE: peripherals.dfy ===
/** The LED duty table and the I2C write helper of main/peripherals.c. Its
    `i2c_read` is the same sequence of driver calls as main/i2c.c's and is
    modelled once, by `I2c.ReadAsWritten` and `I2c.Read`. */
module Peripherals {
  import opened Bytes
  import opened I2cBus
  import I2c

  /** `i2c_write`: unlike main/i2c.c, the data write is queued only when
      `len > 0`. */
  function I2cWrite(dev: u8, reg: u8, data: seq<u8>, ok: bool): (t: Transfer)
    requires |data| <= 0xFFFF
    ensures |t.links| == 1 && LinksReleased(t) && BytesRead(t.links) == 0
    ensures t.links[0].cmd.address == AddressByte(dev, WriteDir)
    ensures |t.links[0].cmd.writes| >= 1 && t.links[0].cmd.writes[0] == WriteByte(reg)
    ensures WriteBuffer(data) in t.links[0].cmd.writes <==> |data| > 0
    ensures t.ret == 0 <==> ok
  {
    var writes := if |data| > 0 then [WriteByte(reg), WriteBuffer(data)] else [WriteByte(reg)];
    var t := Transfer([Link(Command(AddressByte(dev, WriteDir), writes, 0, false), true)], 0, ReturnCode(ok));
    assert t.links[1..] == [];
    t
  }

  /** The two write helpers differ exactly for an empty buffer. */
  lemma WritesAgreeUnlessEmpty(dev: u8, reg: u8, data: seq<u8>, ok: bool)
    requires |data| <= 0xFFFF
    ensures I2cWrite(dev, reg, data, ok) == I2c.Write(dev, reg, data, ok) <==> |data| > 0
  {
    if |data| == 0 {
      assert |I2cWrite(dev, reg, data, ok).links[0].cmd.writes| == 1;
    }
  }

  /** The LED an `led_id_t` names. The enumeration is not declared in any file
      of this model; it is assumed to number the BLE LED 0 and the LoRa LED 1,
      the indices of their LEDC channels in `led_channel[]`. */
  datatype LedId = LedBle | LedLora

  datatype LedState = On | Off | Duty5 | Duty50 | Duty90

  /** Full scale of the 10-bit LEDC timer. */
  const FullScale: nat := 1023

  function Channel(led: LedId): nat
  {
    match led
    case LedBle => 0
    case LedLora => 1
  }

  /** The duty written by `led_set_state`. The scaled states compute
      `1023 / 100 * n` in C integer arithmetic, so the step is 10 rather than
      10.23, and LED_STATE_DUTY_90 uses n = 75. */
  function Duty(state: LedState): (d: nat)
    ensures d <= FullScale
  {
    match state
    case On => FullScale
    case Off => 0
    case Duty5 => FullScale / 100 * 5
    case Duty50 => FullScale / 100 * 50
    case Duty90 => FullScale / 100 * 75
  }

  /** The brightness the state's name promises, in percent. */
  function NominalPercent(state: LedState): nat
  {
    match state
    case On => 100
    case Off => 0
    case Duty5 => 5
    case Duty50 => 50
    case Duty90 => 90
  }

  /** The programmed duty is strictly increasing in the nominal brightness. */
  lemma DutyMonotone(a: LedState, b: LedState)
    ensures NominalPercent(a) < NominalPercent(b) <==> Duty(a) < Duty(b)
  {
  }

  /** The states' actual duty cycles: exact at the ends; ten counts per percent
      (instead of 10.23) for 5 and 50, so slightly dim; and between 73 % and
      74 % of full scale for the state named 90. */
  lemma DutyAgainstNominal(state: LedState)
    ensures state == On || state == Off ==> Duty(state) * 100 == NominalPercent(state) * FullScale
    ensures state == Duty5 || state == Duty50 ==>
      Duty(state) == 10 * NominalPercent(state) && Duty(state) * 100 < NominalPercent(state) * FullScale
    ensures state == Duty90 ==> 73 * FullScale <= Duty(state) * 100 < 74 * FullScale
  {
  }

  datatype LedEffect = SetDuty(channel: nat, duty: nat) | UpdateDuty(channel: nat)

  /** `led_set_state`: set the duty on the LED's channel, then latch it. */
  function SetState(led: LedId, state: LedState): (e: seq<LedEffect>)
    ensures |e| == 2 && e[1] == UpdateDuty(Channel(led))
    ensures e[0].SetDuty? && e[0].channel == e[1].channel && e[0].duty == Duty(state)
    ensures e[0].channel < 2
  {
    [SetDuty(Channel(led), Duty(state)), UpdateDuty(Channel(led))]
  }

  /** The two LEDs never share a channel. */
  lemma ChannelsDistinct(a: LedId, b: LedId)
    ensures a != b ==> Channel(a) != Channel(b)
  {
  }
}

=== FILE: profile.dfy ===
/** main/profile.c: selecting a sensor profile's init/execute/deinit callbacks. */
module Profile {

  /** `profile_t`: PROFILE_ENVIRONMENTAL is 0 and PROFILE_SOIL_MOISTURE is 1; the
      value handed in may be any integer the caller holds. */
  const ProfileEnvironmental: int := 0
  const ProfileSoilMoisture: int := 1

  datatype Kind = EnvironmentalKind | SoilMoistureKind

  datatype Callback = Init(owner: Kind) | Execute(owner: Kind) | Deinit(owner: Kind)

  datatype Callbacks = Callbacks(init: Callback, execute: Callback, deinit: Callback)

  /** `profile_get_callbacks`: the soil-moisture triple for PROFILE_SOIL_MOISTURE,
      the environmental triple for every other value; each field holds the
      callback of its own role and all three come from one profile. */
  function GetCallbacks(profile: int): (cbs: Callbacks)
    ensures cbs.init.Init? && cbs.execute.Execute? && cbs.deinit.Deinit?
    ensures cbs.init.owner == cbs.execute.owner == cbs.deinit.owner
    ensures cbs.execute.owner == SoilMoistureKind <==> profile == ProfileSoilMoisture
  {
    match profile
    case 1 => Callbacks(Init(SoilMoistureKind), Execute(SoilMoistureKind), Deinit(SoilMoistureKind))
    case _ => Callbacks(Init(EnvironmentalKind), Execute(EnvironmentalKind), Deinit(EnvironmentalKind))
  }

  /** The `profile_t` value naming each profile. */
  function ProfileOf(k: Kind): (p: int)
    ensures p == ProfileEnvironmental || p == ProfileSoilMoisture
    ensures p == ProfileSoilMoisture <==> k == SoilMoistureKind
  {
    match k
    case EnvironmentalKind => ProfileEnvironmental
    case SoilMoistureKind => ProfileSoilMoisture
  }

  /** Each profile's own value selects that profile's callbacks. */
  lemma SelectsNamedProfile(k: Kind)
    ensures var cbs := GetCallbacks(ProfileOf(k));
      cbs == Callbacks(Init(k), Execute(k), Deinit(k))
  {
  }

  /** Every value selects exactly what the value of the profile it selects
      selects: anything but PROFILE_SOIL_MOISTURE behaves as
      PROFILE_ENVIRONMENTAL. */
  lemma SelectionFactorsThroughKind(profile: int)
    ensures GetCallbacks(profile) == GetCallbacks(ProfileOf(GetCallbacks(profile).execute.owner))
    ensures profile != ProfileSoilMoisture ==> GetCallbacks(profile) == GetCallbacks(ProfileEnvironmental)
  {
  }
}

=== FILE: profile_default.dfy ===
/** main/profile_default.c: measure, update BLE, send over LoRa. */
module ProfileDefault {
  import opened Bytes
  import opened Wrappers
  import opened EnvPayload
  import opened ProfileIo
  import Cayenne
  import Nvs

  /** `profile_send_lora`: one uplink of the last measurement in the stored format. */
  function SendLora(store: Nvs.Store, s: Sample): (e: Effect)
    ensures e.LoraSend?
    ensures |e.payload| == if FormatOf(store) == 1 then 11 else 5
    ensures FormatOf(store) == 1 ==> e.payload[1] == 104
    ensures FormatOf(store) == 1 ==> Cayenne.Decode(e.payload) == Some([
      Cayenne.Record(1, Cayenne.RelativeHumidity, [s.lpp.humidity]),
      Cayenne.Record(2, Cayenne.Temperature, BigEndian16(Bits16(s.lpp.temperature))),
      Cayenne.Record(3, Cayenne.AnalogInput, BigEndian16(Bits16(s.lpp.battery)))])
    ensures FormatOf(store) != 1 ==> DecodeNative(e.payload) == s.native
  {
    NativeRoundTrip(s.native);
    LppRecords(s.lpp);
    LoraSend(Payload(FormatOf(store), s))
  }

  /** `profile_send_ble`. */
  function SendBle(s: Sample): seq<Effect>
  {
    [BleBattery(s.native.battery), BleEnvironmental(s.native.humidity, s.native.temperature)]
  }

  /** `profile_execute(lora, ble)`: BLE attributes are updated iff `ble`, a LoRa
      uplink is sent iff `lora`, and the BLE update comes first. */
  function Execute(store: Nvs.Store, s: Sample, lora: bool, ble: bool): (effects: seq<Effect>)
    ensures UpdatesBle(effects) <==> ble
    ensures SendsLora(effects) <==> lora
    ensures lora ==> effects[|effects| - 1] == SendLora(store, s)
  {
    var bleEffects := if ble then SendBle(s) else [];
    var loraEffects := if lora then [LoraSend(Payload(FormatOf(store), s))] else [];
    var effects := bleEffects + loraEffects;
    assert ble ==> effects[0].BleBattery?;
    assert lora ==> effects[|bleEffects|].LoraSend?;
    assert !ble ==> effects == loraEffects;
    effects
  }
}

=== FILE: profile_environmental.dfy ===
/** main/profile_environmental.c: the environmental profile's callbacks. */
module ProfileEnvironmental {
  import opened Bytes
  import opened EnvPayload
  import opened ProfileIo
  import Nvs
  import ProfileDefault

  /** `environmental_execute(lora, ble)`. */
  function Execute(store: Nvs.Store, s: Sample, lora: bool, ble: bool): (effects: seq<Effect>)
    ensures UpdatesBle(effects) <==> ble
    ensures SendsLora(effects) <==> lora
  {
    var bleEffects := if ble then [BleBattery(s.native.battery), BleEnvironmental(s.native.humidity, s.native.temperature)] else [];
    var loraEffects := if lora then [LoraSend(Payload(FormatOf(store), s))] else [];
    var effects := bleEffects + loraEffects;
    assert ble ==> effects[0].BleBattery?;
    assert lora ==> effects[|bleEffects|].LoraSend?;
    assert !ble ==> effects == loraEffects;
    effects
  }

  /** For the same store and measurement the environmental profile does exactly
      what the default profile does, byte for byte. */
  lemma SameAsDefault(store: Nvs.Store, s: Sample, lora: bool, ble: bool)
    ensures Execute(store, s, lora, ble) == ProfileDefault.Execute(store, s, lora, ble)
  {
  }
}

=== FILE: profile_io.dfy ===
/** What a sensor profile's `execute` callback does to the outside world, in order. */
module ProfileIo {
  import opened Bytes

  datatype Effect =
    | BleBattery(percent: u8)                                  // ble_set_battery
    | BleEnvironmental(humidity: u16, temperature: i16)        // ble_set_enviromental, in hundredths
    | BleTelemetry(humidity: u16, temperature: i16, pressure: u32) // the three-argument call, whose definition is not part of this model
    | ExtNsw(high: bool)                                       // gpio_set_level(EXT_NSW, …)
    | AdcRead                                                  // adc1_get_raw on the soil probe
    | LoraSend(payload: seq<u8>)                               // lora_send(payload, length)

  predicate UpdatesBle(effects: seq<Effect>)
  {
    exists i :: 0 <= i < |effects| && (effects[i].BleBattery? || effects[i].BleEnvironmental? || effects[i].BleTelemetry?)
  }

  predicate SendsLora(effects: seq<Effect>)
  {
    exists i :: 0 <= i < |effects| && effects[i].LoraSend?
  }
}

=== FILE: profile_soil_moisture.dfy ===
/** main/profile_soil_moisture.c: BME280 reading plus a switched soil probe. */
module ProfileSoilMoisture {
  import opened Bytes
  import opened Wrappers
  import opened Cayenne
  import opened ProfileIo
  import EnvPayload
  import Nvs

  /** LPP fields: humidity in 0.5 % (`uint8_t`), temperature in 0.1 °C
      (`int16_t`), pressure in 0.1 hPa (`uint16_t`). */
  datatype LppFields = LppFields(humidity: u8, temperature: i16, pressure: u16)

  /** Native fields: humidity and temperature in hundredths, pressure `* 100` (`uint32_t`). */
  datatype NativeFields = NativeFields(humidity: u16, temperature: i16, pressure: u32)

  datatype Sample = Sample(lpp: LppFields, native: NativeFields)

  /** The constant the firmware places where battery and digital output go. */
  const FixedLevel: u8 := 100

  function EncodeLpp(f: LppFields): (p: seq<u8>)
    ensures |p| == 14
  {
    [1, Code(RelativeHumidity), f.humidity,
     2, Code(Temperature), HighByte(Bits16(f.temperature)), LowByte(Bits16(f.temperature)),
     3, Code(BarometricPressure), HighByte(f.pressure), LowByte(f.pressure),
     4, Code(DigitalOutput), FixedLevel]
  }

  /** The packed 11-byte `native_payload_t`. Its `soil_moisture` field is never
      assigned, so its two bytes are whatever the stack held: `unset`. */
  function EncodeNative(f: NativeFields, unset: u16): (p: seq<u8>)
    ensures |p| == 11
  {
    LittleEndian16(f.humidity) + LittleEndian16(Bits16(f.temperature))
      + LittleEndian32(f.pressure) + [FixedLevel] + LittleEndian16(unset)
  }

  /** Four well-formed records: humidity, temperature, pressure and a digital
      output carrying the constant 100, on channels 1 to 4. */
  lemma LppRecords(f: LppFields)
    ensures Decode(EncodeLpp(f)) == Some([
      Record(1, RelativeHumidity, [f.humidity]),
      Record(2, Temperature, BigEndian16(Bits16(f.temperature))),
      Record(3, BarometricPressure, BigEndian16(f.pressure)),
      Record(4, DigitalOutput, [100])])
  {
    var rs := [
      Record(1, RelativeHumidity, [f.humidity]),
      Record(2, Temperature, BigEndian16(Bits16(f.temperature))),
      Record(3, BarometricPressure, BigEndian16(f.pressure)),
      Record(4, DigitalOutput, [100])];
    assert AllWellFormed(rs);
    assert Encode(rs[3..]) == EncodeRecord(rs[3]) by {
      assert rs[3..][1..] == [];
    }
    assert Encode(rs[2..]) == EncodeRecord(rs[2]) + EncodeRecord(rs[3]) by {
      assert rs[2..][1..] == rs[3..];
    }
    assert Encode(rs[1..]) == EncodeRecord(rs[1]) + EncodeRecord(rs[2]) + EncodeRecord(rs[3]) by {
      assert rs[1..][1..] == rs[2..];
    }
    assert Encode(rs) == EncodeLpp(f);
    DecodeEncode(rs);
  }

  /** Temperature reads back as a signed and pressure as an unsigned
      big-endian 16-bit value. */
  lemma LppReadBack(f: LppFields)
    ensures var p := EncodeLpp(f);
      && Signed16(Join16(p[5], p[6])) == f.temperature
      && Join16(p[9], p[10]) == f.pressure
      && p[13] == 100
  {
    SplitThenJoin16(Bits16(f.temperature));
    SplitThenJoin16(f.pressure);
    Signed16OfBits16(f.temperature);
  }

  /** Only the first nine native bytes depend on the measurement; byte 8 is the
      fixed battery level, and the last two are not determined at all. */
  lemma NativeLayout(f: NativeFields, a: u16, b: u16)
    ensures EncodeNative(f, a)[..9] == EncodeNative(f, b)[..9]
    ensures EncodeNative(f, a)[8] == 100
    ensures ReadLittleEndian16(EncodeNative(f, a)[0..2]) == f.humidity
    ensures Signed16(ReadLittleEndian16(EncodeNative(f, a)[2..4])) == f.temperature
    ensures ReadLittleEndian32(EncodeNative(f, a)[4..8]) == f.pressure
    ensures a != b ==> EncodeNative(f, a) != EncodeNative(f, b)
  {
    var p := EncodeNative(f, a);
    assert p[0..2] == LittleEndian16(f.humidity);
    assert p[2..4] == LittleEndian16(Bits16(f.temperature));
    assert p[4..8] == LittleEndian32(f.pressure);
    LittleEndian16RoundTrip(f.humidity);
    LittleEndian16RoundTrip(Bits16(f.temperature));
    Signed16OfBits16(f.temperature);
    LittleEndian32RoundTrip(f.pressure);
    if a != b {
      var q := EncodeNative(f, b);
      assert p[9..11] == LittleEndian16(a) && q[9..11] == LittleEndian16(b);
      LittleEndian16RoundTrip(a);
      LittleEndian16RoundTrip(b);
    }
  }

  function Payload(format: u8, s: Sample, unset: u16): (p: seq<u8>)
    ensures |p| == if format == 1 then 14 else 11
  {
    if format == 1 then EncodeLpp(s.lpp) else EncodeNative(s.native, unset)
  }

  /** The soil probe's supply bracket: EXT_NSW high, three ADC reads, EXT_NSW low. */
  const ProbeCycle: seq<Effect> := [ExtNsw(true), AdcRead, AdcRead, AdcRead, ExtNsw(false)]

  /** `soil_mousture_execute(lora, ble)`: the probe is powered and released
      whatever the flags; BLE is updated iff `ble` and an uplink sent iff `lora`. */
  function Execute(store: Nvs.Store, s: Sample, unset: u16, lora: bool, ble: bool): (effects: seq<Effect>)
    ensures |effects| >= 5 && effects[..5] == [ExtNsw(true), AdcRead, AdcRead, AdcRead, ExtNsw(false)]
    ensures forall i :: 0 <= i < |effects| && effects[i] == AdcRead ==> 0 < i < 4
    ensures forall i :: 0 < i < |effects| ==> !effects[i].ExtNsw? || i == 4
    ensures UpdatesBle(effects) <==> ble
    ensures SendsLora(effects) <==> lora
    ensures lora ==> effects[|effects| - 1] == LoraSend(Payload(EnvPayload.FormatOf(store), s, unset))
  {
    var bleEffects := if ble then [BleTelemetry(s.native.humidity, s.native.temperature, s.native.pressure)] else [];
    var loraEffects := if lora then [LoraSend(Payload(EnvPayload.FormatOf(store), s, unset))] else [];
    var effects := ProbeCycle + bleEffects + loraEffects;
    assert ble ==> effects[5].BleTelemetry?;
    assert lora ==> effects[5 + |bleEffects|].LoraSend?;
    effects
  }
}

=== FILE: send_timing.dfy ===
/** The remaining-time arithmetic shared by `arm_send_timer` and the sleep block
    of `app_main` in main/main.c. Times are the seconds of `gettimeofday`; the
    send period is the `uint16_t` read from the store. */
module SendTiming {
  import opened Bytes

  const Two16: int := 0x1_0000
  const Two31: int := 0x8000_0000
  const Two32: int := 0x1_0000_0000
  const Two64: int := 0x1_0000_0000_0000_0000

  /** `uint16_t dt = now.tv_sec - send_time`: the elapsed seconds truncated to
      16 bits (the conversion to an unsigned type is modular). */
  function Elapsed(now: int, sendTime: int): (dt: u16)
    ensures 0 <= now - sendTime < Two16 ==> dt == now - sendTime
  {
    (now - sendTime) % Two16
  }

  /** Seconds until the next send: the rest of the period while it is running,
      and the whole period again once it is over (an overdue send is not
      rescheduled at once). */
  function Remaining(period: u16, now: int, sendTime: int): (r: u16)
    ensures r <= period
    ensures period >= 1 ==> r >= 1
    ensures Elapsed(now, sendTime) < period ==> r + Elapsed(now, sendTime) == period
    ensures Elapsed(now, sendTime) >= period ==> r == period
  {
    var dt := Elapsed(now, sendTime);
    if dt < period then period - dt else period
  }

  /** Right after `measure_and_send` stamps `send_time := now`, a whole period
      remains. */
  lemma RemainingAfterStamp(period: u16, now: int)
    ensures Remaining(period, now, now) == period
  {
  }

  /** While the period runs, the remaining time counts down second by second. */
  lemma RemainingCountsDown(period: u16, now: int, sendTime: int, k: nat)
    requires 0 <= now - sendTime && now - sendTime + k < period
    ensures Remaining(period, now + k, sendTime) + k == Remaining(period, now, sendTime)
  {
  }

  /** The 16-bit truncation makes the countdown restart every 65536 seconds. */
  lemma ElapsedWraps(period: u16, now: int, sendTime: int)
    ensures Remaining(period, now + Two16, sendTime) == Remaining(period, now, sendTime)
  {
    assert (now + Two16 - sendTime) % Two16 == (now - sendTime) % Two16;
  }

  /** C's `int` arithmetic where the product leaves its range: the value
      reduced to 32-bit two's complement. C leaves signed overflow undefined;
      this is the wrap the compiled multiplication produces on the ESP32. */
  function WrapInt32(x: int): (r: int)
    ensures -Two31 <= r < Two31
    ensures (r - x) % Two32 == 0
  {
    var m := x % Two32;
    if m >= Two31 then m - Two32 else m
  }

  /** Conversion of an `int` argument to a `uint64_t` parameter. */
  function ToUint64(x: int): (r: u64)
    ensures 0 <= x ==> r == x % Two64
    ensures -Two64 <= x < 0 ==> r == x + Two64
  {
    x % Two64
  }

  /** `period * 1000000` as written at main.c:98 and main.c:305: `period` is
      promoted to `int`, so the product is computed in 32 bits before it
      reaches the `uint64_t` microsecond parameter. */
  function MicrosAsWritten(period: u16): (us: u64)
    ensures us % Two32 == period * 1_000_000 % Two32
    ensures us < Two31 || us >= Two64 - Two31
    ensures period <= 2147 ==> us == period * 1_000_000
  {
    ToUint64(WrapInt32(period * 1_000_000))
  }

  /** The intended microsecond value of `period` seconds. */
  function Micros(period: u16): (us: u64)
    ensures us / 1_000_000 == period && us % 1_000_000 == 0
  {
    period * 1_000_000
  }

  /** The 32-bit product is right exactly for periods up to 2147 s (35 min). */
  lemma MicrosAsWrittenCorrectIff(period: u16)
    ensures MicrosAsWritten(period) == Micros(period) <==> period <= 2147
  {
    if period <= 2147 {
      assert period * 1_000_000 < Two31;
    } else if period * 1_000_000 < Two32 {
      assert WrapInt32(period * 1_000_000) < 0;
    } else {
      assert MicrosAsWritten(period) < Two32 || MicrosAsWritten(period) >= Two64 - Two31;
    }
  }

  /** One hour: the timer is armed about 584 000 years ahead instead. */
  lemma HourPeriodOverflows()
    ensures Micros(3600) == 3_600_000_000
    ensures MicrosAsWritten(3600) == Two64 - 694_967_296
  {
  }

  /** Not every overflow gives a huge timeout: from 4295 s the wrapped product
      is small and positive again, so the timer fires after milliseconds. */
  lemma ShortTimeoutBand()
    ensures Micros(4295) == 4_295_000_000
    ensures MicrosAsWritten(4295) == 32_704
  {
  }
}

=== FILE: sensor.dfy ===
/** main/sensor.c: the integer parts of the DHT22 and DHT10 temperature/humidity
    sensor drivers (the float scaling and the pulse-timing loop are not modelled). */
module Sensor {
  import opened Bytes

  /** `dht_convert_data`: bits 14..0 of `msb:lsb` are the magnitude and bit 15 the
      sign (sign-magnitude, not two's complement). The result fits `int16_t`. */
  function DhtConvert(msb: u8, lsb: u8): (v: int)
    ensures -0x7FFF <= v <= 0x7FFF
    ensures v < 0 ==> msb >= 0x80
    ensures msb >= 0x80 ==> v <= 0
  {
    var data := (msb % 0x80) * 0x100 + lsb;
    if msb >= 0x80 then -data else data
  }

  /** The sign-magnitude word of a value in [-32767, 32767], as (msb, lsb). */
  function SignMagnitude(v: int): (u8, u8)
    requires -0x7FFF <= v <= 0x7FFF
  {
    if v < 0 then ((-v) / 0x100 + 0x80, (-v) % 0x100) else (v / 0x100, v % 0x100)
  }

  lemma ConvertSignMagnitude(v: int)
    requires -0x7FFF <= v <= 0x7FFF
    ensures DhtConvert(SignMagnitude(v).0, SignMagnitude(v).1) == v
  {
  }

  /** Every word other than the "negative zero" 0x8000 is recovered from its
      value, so decoding loses nothing else. */
  lemma SignMagnitudeConvert(msb: u8, lsb: u8)
    requires (msb, lsb) != (0x80, 0)
    ensures SignMagnitude(DhtConvert(msb, lsb)) == (msb, lsb)
  {
  }

  /** Two different words decode to the same value only if they are 0x0000 and 0x8000. */
  lemma ConvertInjectiveButZero(m1: u8, l1: u8, m2: u8, l2: u8)
    requires (m1, l1) != (m2, l2) && DhtConvert(m1, l1) == DhtConvert(m2, l2)
    ensures {(m1, l1), (m2, l2)} == {(0, 0), (0x80, 0)}
  {
    if (m1, l1) != (0x80, 0) && (m2, l2) != (0x80, 0) {
      SignMagnitudeConvert(m1, l1);
      SignMagnitudeConvert(m2, l2);
    }
  }

  function BitValue(b: bool): int
  {
    if b then 1 else 0
  }

  /** Bit `p` (0 = least significant) of `x`. */
  function Bit(x: nat, p: nat): bool
  {
    if p == 0 then x % 2 == 1 else Bit(x / 2, p - 1)
  }

  function Pow2(n: nat): nat
  {
    if n == 0 then 1 else 2 * Pow2(n - 1)
  }

  /** The byte obtained by shifting `bs` in most-significant bit first. */
  function Fold(bs: seq<bool>): nat
  {
    if |bs| == 0 then 0 else 2 * Fold(bs[..|bs| - 1]) + BitValue(bs[|bs| - 1])
  }

  lemma {:induction false} FoldBound(bs: seq<bool>)
    ensures Fold(bs) < Pow2(|bs|)
  {
    if |bs| > 0 {
      FoldBound(bs[..|bs| - 1]);
    }
  }

  lemma {:induction false} Pow2Monotone(m: nat, n: nat)
    requires m <= n
    ensures Pow2(m) <= Pow2(n)
  {
    if m < n {
      Pow2Monotone(m, n - 1);
    }
  }

  /** The first bit shifted in ends up as the most significant one. */
  lemma {:induction false} FoldBitLayout(bs: seq<bool>, j: nat)
    requires j < |bs|
    ensures Bit(Fold(bs), |bs| - 1 - j) == bs[j]
  {
    var init := bs[..|bs| - 1];
    if j < |bs| - 1 {
      FoldBitLayout(init, j);
      assert (2 * Fold(init) + BitValue(bs[|bs| - 1])) / 2 == Fold(init);
    }
  }

  /** Received bits 8k .. 8k+7 as one byte. */
  function PackedByte(bits: seq<bool>, k: nat): (b: u8)
    requires |bits| == 40 && k < 5
    ensures b == Fold(bits[8 * k..8 * k + 8])
  {
    FoldBound(bits[8 * k..8 * k + 8]);
    assert Pow2(8) == 256;
    Fold(bits[8 * k..8 * k + 8])
  }

  /** The 40 received bits packed into five bytes, eight per byte, MSB first. */
  function Pack(bits: seq<bool>): (data: seq<u8>)
    requires |bits| == 40
    ensures |data| == 5
  {
    seq(5, k requires 0 <= k < 5 => PackedByte(bits, k))
  }

  /** Byte k, bit 7 − j holds received bit 8k + j. */
  lemma PackLayout(bits: seq<bool>, k: nat, j: nat)
    requires |bits| == 40 && k < 5 && j < 8
    ensures Bit(Pack(bits)[k], 7 - j) == bits[8 * k + j]
  {
    FoldBitLayout(bits[8 * k..8 * k + 8], j);
  }

  /** Byte k after the first i bits have been shifted in. */
  function PartialByte(bits: seq<bool>, i: nat, k: nat): (b: u8)
    requires |bits| == 40 && i <= 40 && k < 5
  {
    if k < i / 8 then PackedByte(bits, k)
    else if k == i / 8 then
      var prefix := bits[8 * k..i];
      FoldBound(prefix);
      Pow2Monotone(|prefix|, 7);
      assert Pow2(7) == 128;
      Fold(prefix)
    else 0
  }

  function Partial(bits: seq<bool>, i: nat): (data: seq<u8>)
    requires |bits| == 40 && i <= 40
    ensures |data| == 5
  {
    seq(5, k requires 0 <= k < 5 => PartialByte(bits, i, k))
  }

  /** The byte being filled after i bits, shifted once more with bit i, is that
      byte after i + 1 bits. */
  lemma PartialByteStep(bits: seq<bool>, i: nat)
    requires |bits| == 40 && i < 40
    ensures (PartialByte(bits, i, i / 8) * 2) % 0x100 + BitValue(bits[i]) == PartialByte(bits, i + 1, i / 8)
  {
    var q := i / 8;
    var prefix := bits[8 * q..i];
    var longer := bits[8 * q..i + 1];
    assert 8 * q <= i < 8 * q + 8;
    FoldBound(prefix);
    Pow2Monotone(|prefix|, 7);
    assert Pow2(7) == 128;
    assert PartialByte(bits, i, q) == Fold(prefix);
    assert longer[..|longer| - 1] == prefix;
    assert Fold(longer) == 2 * Fold(prefix) + BitValue(bits[i]);
    if (i + 1) % 8 == 0 {
      assert (i + 1) / 8 == q + 1 && longer == bits[8 * q..8 * q + 8];
    } else {
      assert (i + 1) / 8 == q;
    }
  }

  /** One turn of the packing loop takes the state after i bits to the state after i + 1. */
  lemma PartialStep(bits: seq<bool>, i: nat)
    requires |bits| == 40 && i < 40
    ensures var q := i / 8; var data := Partial(bits, i);
      data[q := (data[q] * 2) % 0x100 + BitValue(bits[i])] == Partial(bits, i + 1)
  {
    var q := i / 8;
    var data := Partial(bits, i);
    var next := data[q := (data[q] * 2) % 0x100 + BitValue(bits[i])];
    PartialByteStep(bits, i);
    forall k | 0 <= k < 5
      ensures next[k] == Partial(bits, i + 1)[k]
    {
    }
  }

  lemma PartialComplete(bits: seq<bool>)
    requires |bits| == 40
    ensures Partial(bits, 40) == Pack(bits)
  {
    assert forall k :: 0 <= k < 5 ==> Partial(bits, 40)[k] == Pack(bits)[k];
  }

  /** The packing loop of `sensor_read` (`data[i / 8] <<= 1; data[i / 8] |= bits[i];`
      on `uint8_t`: the shift is truncated to eight bits and the new bit lands in
      the cleared bit 0). */
  method PackBits(bits: seq<bool>) returns (data: seq<u8>)
    requires |bits| == 40
    ensures data == Pack(bits)
  {
    data := [0, 0, 0, 0, 0];
    assert data == Partial(bits, 0);
    var i := 0;
    while i < 40
      invariant 0 <= i <= 40
      invariant data == Partial(bits, i)
    {
      PartialStep(bits, i);
      data := data[i / 8 := (data[i / 8] * 2) % 0x100 + BitValue(bits[i])];
      i := i + 1;
    }
    PartialComplete(bits);
  }

  /** Bit decision of the DHT22 read: a 1 when the line stayed high longer than low. */
  datatype Pulse = Pulse(low: nat, high: nat)

  function BitOf(p: Pulse): bool
  {
    p.high > p.low
  }

  /** Bit 7 of a byte is its top bit. */
  lemma TopBit(x: u8)
    ensures Bit(x, 7) <==> x >= 0x80
  {
    assert Bit(x, 7) == Bit(x / 2, 6) == Bit(x / 4, 5) == Bit(x / 8, 4) == Bit(x / 16, 3);
    assert Bit(x / 16, 3) == Bit(x / 32, 2) == Bit(x / 64, 1) == Bit(x / 128, 0);
  }

  /** Humidity and temperature in tenths from the 40 measured pulses: bytes 0–1 and
      2–3 of the packed frame. Byte 4, the checksum, is read but never compared.
      The sign of each reading is the first bit of its word: received bit 0 for
      humidity and bit 16 for temperature, each a high pulse longer than its low. */
  function Dht22Read(pulses: seq<Pulse>): (r: (int, int))
    requires |pulses| == 40
    ensures -0x7FFF <= r.0 <= 0x7FFF && -0x7FFF <= r.1 <= 0x7FFF
    ensures r.0 < 0 ==> pulses[0].high > pulses[0].low
    ensures r.1 < 0 ==> pulses[16].high > pulses[16].low
  {
    var bits := seq(40, i requires 0 <= i < 40 => BitOf(pulses[i]));
    var data := Pack(bits);
    PackLayout(bits, 0, 0);
    PackLayout(bits, 2, 0);
    TopBit(data[0]);
    TopBit(data[2]);
    (DhtConvert(data[0], data[1]), DhtConvert(data[2], data[3]))
  }

  /** Pulse trains that agree on their first 32 bits read the same, whatever the
      checksum bits say: a corrupted checksum is not detected. */
  lemma ChecksumIgnored(p: seq<Pulse>, q: seq<Pulse>)
    requires |p| == 40 && |q| == 40
    requires forall i :: 0 <= i < 32 ==> BitOf(p[i]) == BitOf(q[i])
    ensures Dht22Read(p) == Dht22Read(q)
  {
    var bp := seq(40, i requires 0 <= i < 40 => BitOf(p[i]));
    var bq := seq(40, i requires 0 <= i < 40 => BitOf(q[i]));
    forall k | 0 <= k < 4
      ensures Pack(bp)[k] == Pack(bq)[k]
    {
      assert bp[8 * k..8 * k + 8] == bq[8 * k..8 * k + 8];
    }
  }

  /** DHT10 raw relative humidity: bytes 1, 2 and the high nibble of byte 3. */
  function RawHumidity(b: seq<u8>): (r: nat)
    requires |b| == 6
    ensures r < 0x10_0000
  {
    (b[1] as int * 0x100 + b[2]) * 0x10 + b[3] / 0x10
  }

  /** DHT10 raw temperature: the low nibble of byte 3, bytes 4 and 5. */
  function RawTemperature(b: seq<u8>): (r: nat)
    requires |b| == 6
    ensures r < 0x10_0000
  {
    ((b[3] % 0x10) as int * 0x100 + b[4]) * 0x100 + b[5]
  }

  /** The six-byte DHT10 reply carrying the given status and 20-bit raw fields. */
  function Dht10Frame(status: u8, rh: nat, rt: nat): (b: seq<u8>)
    requires rh < 0x10_0000 && rt < 0x10_0000
    ensures |b| == 6
  {
    [status, rh / 0x1000, (rh / 0x10) % 0x100, (rh % 0x10) * 0x10 + rt / 0x1_0000,
     (rt / 0x100) % 0x100, rt % 0x100]
  }

  /** The two fields occupy disjoint bits: each is recovered from a frame built
      from both, and a frame is rebuilt from its two fields and status. */
  lemma Dht10FieldsRoundTrip(status: u8, rh: nat, rt: nat)
    requires rh < 0x10_0000 && rt < 0x10_0000
    ensures RawHumidity(Dht10Frame(status, rh, rt)) == rh
    ensures RawTemperature(Dht10Frame(status, rh, rt)) == rt
  {
    var b := Dht10Frame(status, rh, rt);
    assert b[3] / 0x10 == rh % 0x10 && b[3] % 0x10 == rt / 0x1_0000;
    assert b[1] as int * 0x100 + b[2] == rh / 0x10;
    assert (b[3] % 0x10) as int * 0x100 + b[4] == rt / 0x100;
  }

  lemma Dht10FrameRoundTrip(b: seq<u8>)
    requires |b| == 6
    ensures Dht10Frame(b[0], RawHumidity(b), RawTemperature(b)) == b
  {
    var rh, rt := RawHumidity(b), RawTemperature(b);
    var hi, mid := b[1] as int * 0x100 + b[2], (b[3] % 0x10) as int * 0x100 + b[4];
    assert rh / 0x10 == hi && rh % 0x10 == b[3] / 0x10;
    assert hi / 0x100 == b[1] && hi % 0x100 == b[2];
    assert rt / 0x100 == mid && rt % 0x100 == b[5];
    assert mid / 0x100 == b[3] % 0x10 && mid % 0x100 == b[4];
    assert rh / 0x1000 == hi / 0x100;
    assert rt / 0x1_0000 == mid / 0x100;
  }

  /** `sensor_init` for the DHT10: every I2C transfer returned 0 and the status
      byte has its calibration bit (bit 3) set; otherwise ESP_ERROR_CHECK aborts. */
  function Dht10InitSucceeds(resetRet: int, initRet: int, readRet: int, status: u8): (ok: bool)
    ensures ok <==> resetRet == 0 && initRet == 0 && readRet == 0 && Bit(status, 3)
  {
    assert Bit(status, 3) == Bit(status / 8, 0) by {
      assert Bit(status, 3) == Bit(status / 2, 2) == Bit(status / 2 / 2, 1) == Bit(status / 2 / 2 / 2, 0);
    }
    // `(status & 0x8) == 0x8`
    resetRet == 0 && initRet == 0 && readRet == 0 && (status / 8) % 2 == 1
  }
}

=== FILE: wrappers.dfy ===
/** Optional values, used wherever the firmware may produce nothing
    (an unknown attribute handle, an empty queue, a truncated frame). */
module Wrappers {

  datatype Option<+T> = None | Some(value: T)
}
